=== FILE: README.md ===
# Bible chapter classifier: post-processing model

A Dafny model of what `classify_chapter_internal` does after the language
model has replied (bible_chap_doctrine_wa.py, lines 363-366). The reply goes
through three stages:

1. **`fix_json`**. A `str.replace` and three regular-expression passes
   repair the quote characters, and a fourth regular-expression pass escapes
   apostrophes inside every `"key": "value"` pair. The
   span from the first `{` to the last `}` is then cut out and handed to
   `json.loads`. The model is in `repair.dfy`, module `Repair`.
2. **`enrich_key_verses`**. Every `key_verse` that starts with a verse number
   is replaced by that verse's text from the fetched chapter, followed by
   ` (<chapter>:<number>)`. The model is in `enrich.dfy`, module `Enrich`.
3. **`normalize_categories`**. Each lesson's `lesson` label is classified by
   `pick_category`. It matches the label case-insensitively against the
   thirty life principles, then the doctrine list, then the growth list, and
   falls back to `Other`. The result is written into `category`,
   `lesson_name` and `lesson_text`. The model is in `taxonomy.dfy` (module
   `Taxonomy`, with the three constant lists) and `normalize.dfy` (module
   `Normalize`).

Shared vocabulary lives in the other two files:

- `base.dfy` (module `Base`) holds the lesson records and the two exception
  shapes, `ValueError` and `KeyError`.
- `text.dfy` (module `Text`) holds Python string operations: `strip`,
  ASCII `lower`, `in`, `replace`, and `str(n)`.

`pipeline.dfy` (module `Pipeline`) wires the stages together. It also proves
two things about the record stages:

- They commute: normalizing before enriching gives the same record and the
  same error.
- A worked record comes out as expected.

Each `re.sub` is modelled as Python runs it. The leftmost match is replaced
and scanning resumes after it. Where no match starts, one character is
copied. Each pass is a recursion over the unscanned suffix.

A lesson is a `map<string, string>`. The parsed object is a
`Classification` whose `main_lesson` and `other_lessons` entries are
optional. An absent entry stays absent, because neither stage inserts those
keys. The `KeyError`s that `normalize_categories` raises are modelled as
`Failure` results, not as preconditions:

- a missing `main_lesson`;
- a lesson without a `lesson` label.

## Behaviour worth knowing

- **Missing verse.** A verse number the chapter lacks is not an error. The
  result is the citation alone, with its leading space:
  `" (<ref>:<n>)"`. This is `Enrich.MissingVerseGivesCitation`.
- **Repair changes text that is already valid JSON.** Two cases show it:
  - an apostrophe inside a value becomes `\"`;
  - an empty string value `""` is collapsed by line 186 into a single quote,
    which leaves the object unterminated. This is
    `Repair.EmptyStringValueCollapsed`.
- **Repair is not idempotent.** Three adjacent quotes `"""` repair to `""`,
  and a second repair turns those into `"`, because line 186 collapses every
  adjacent pair it meets. This is `Repair.RepairNotIdempotent`.
- **Stage order.** Enrichment and normalization write disjoint fields, so
  running line 366 before line 365 would give the same record and the same
  error. This is `Pipeline.StagesCommute`.

## Model

| member | source | states |
|---|---|---|
| Repair.DropQuotesBeforeParens | bible_chap_doctrine_wa.py:185 | the line-185 pass as a suffix scan; its own contract says only that it never lengthens the text |
| Repair.CollapseQuotePairs | bible_chap_doctrine_wa.py:186 | the line-186 pass as a suffix scan; its own contract says only that it never lengthens the text |
| Repair.MatchPair | bible_chap_doctrine_wa.py:204 | the pattern of line 204 tried at the start of a text; its own contract says only that a match fits in the text |
| Repair.EscapePairValues | bible_chap_doctrine_wa.py:197-204 | the line-204 substitution as a suffix scan; the result is empty iff the input is |
| Repair.ReplaceLeftQuotes | bible_chap_doctrine_wa.py:184 | no left curly quote remains; each one became `'` and every other character is kept in place |
| Repair.DropRemovesQuoteAndSpaces | bible_chap_doctrine_wa.py:185 | a quote, a whitespace run and `(` lose the quote and the run, and the `(` is kept and rescanned |
| Repair.DropCopiesPrefix | bible_chap_doctrine_wa.py:185 | text in which no match starts is copied unchanged, and the pass goes on with the rest; with `DropRemovesQuoteAndSpaces` this fixes the output at the first match |
| Repair.DropKeepsVisible | bible_chap_doctrine_wa.py:185 | line 185 deletes only quotes and whitespace: all other characters survive in order |
| Repair.DropUnchanged | bible_chap_doctrine_wa.py:185 | where no quote precedes `(` across whitespace, the pass is the identity |
| Repair.CollapseKeepsNonQuotes | bible_chap_doctrine_wa.py:186 | collapsing quote pairs keeps every non-quote character in order |
| Repair.CollapseUnchanged | bible_chap_doctrine_wa.py:186 | without two adjacent quote characters, the pass is the identity |
| Repair.CollapseCopiesPrefix | bible_chap_doctrine_wa.py:186 | text in which no two quote characters are adjacent is copied unchanged, and the pass goes on with the rest |
| Repair.CollapseFirstPair | bible_chap_doctrine_wa.py:186 | the first pair of quote characters of any kind (`""`, `””`, `”"`, `"”`, …) becomes one straight `"`, the text before it is copied, and the scan resumes after the pair |
| Repair.EmptyStringValueCollapsed | bible_chap_doctrine_wa.py:186 | an empty JSON string `""` after text with no pending quote collapses to a single `"`, as in `{"a": ""}` becoming `{"a": "}` |
| Repair.CurlyToApostrophes | bible_chap_doctrine_wa.py:187 | position by position, a curly quote followed by a non-newline character becomes `'` and nothing else changes |
| Repair.CurlySurvivors | bible_chap_doctrine_wa.py:187 | afterwards a curly quote remains only as the last character or before a newline |
| Repair.CurlyToApostrophesUnchanged | bible_chap_doctrine_wa.py:187 | without curly quotes the pass is the identity |
| Repair.MatchPairSound | bible_chap_doctrine_wa.py:204 | a match is a valid `"key":<ws>"value"` pair (non-empty key, no `"` in key or value) and is a prefix of the text |
| Repair.MatchPairOnPair | bible_chap_doctrine_wa.py:204 | on text that starts with such a pair, the key, whitespace and value runs end exactly where the pair's parts end |
| Repair.MatchPairComplete | bible_chap_doctrine_wa.py:204 | conversely, every text that starts with such a pair matches, with exactly those groups |
| Repair.EscapeApostrophesAsQuotes | bible_chap_doctrine_wa.py:200 | escaping apostrophes in a matched value is quote-escaping the value read with `"` for `'`, and unescaping gives that value back |
| Repair.EscapePairRewrites | bible_chap_doctrine_wa.py:197-204 | each pair is rewritten as `"key": "value"` with one space and escaped apostrophes, and the scan resumes right after it |
| Repair.EscapeCopiesPrefix | bible_chap_doctrine_wa.py:197-204 | text in which no pair match starts is copied unchanged, and the pass goes on with the rest |
| Repair.EscapePairValuesUnchanged | bible_chap_doctrine_wa.py:197-204 | text without apostrophes and with canonical `": "` spacing is left unchanged |
| Repair.RepairQuotes | bible_chap_doctrine_wa.py:184-204 | the five passes in source order; together they are the identity on well-quoted text |
| Repair.RepairNotIdempotent | bible_chap_doctrine_wa.py:186 | `"""` repairs to `""`, and repairing that again gives `"` |
| Repair.ExtractObject | bible_chap_doctrine_wa.py:207-211 | a span exists iff some `{` precedes some `}`; it runs from the first `{` to the last `}` |
| Repair.FixJson | bible_chap_doctrine_wa.py:207-217 | fails only with `ValueError`; "No JSON object found" iff no span; success iff the parser accepts the span, with the parser's value; a parser error gives the "Invalid JSON after fix" message with the span and the error |
| Repair.FixJsonWellQuoted | bible_chap_doctrine_wa.py:176-217 | on well-quoted text, `fix_json` is `json.loads` of the text's own outermost `{...}` span, with both error messages |
| Text.Strip | bible_chap_doctrine_wa.py:363 | the result neither starts nor ends with whitespace |
| Text.StripSlice | bible_chap_doctrine_wa.py:363 | the result is a slice of the input with only whitespace cut from each end |
| Text.NatToDecimal | bible_chap_doctrine_wa.py:264 | `str(n)` is a non-empty run of ASCII digits with no leading zero unless it is `0` |
| Text.DecimalRoundTrip | bible_chap_doctrine_wa.py:264 | `str(n)` reads back as `n` |
| Text.DecimalInjective | bible_chap_doctrine_wa.py:264 | distinct verse numbers give distinct verse-map keys |
| Text.EscapeQuotes | bible_chap_doctrine_wa.py:273 | `replace('"', '\\"')` never shortens the text |
| Text.EscapeRoundTrip | bible_chap_doctrine_wa.py:273 | quote escaping loses nothing: unescaping gives the verse text back |
| Text.EscapeNoQuotes | bible_chap_doctrine_wa.py:273 | a text without `"` is unchanged by the escaping |
| Enrich.VerseMap | bible_chap_doctrine_wa.py:264 | a key is in the verse map iff it is `str` of some verse's number |
| Enrich.VerseMapLastWins | bible_chap_doctrine_wa.py:264 | for a duplicated verse number, the map holds the last verse's text |
| Enrich.LeadingDigits | bible_chap_doctrine_wa.py:267 | the captured number is the longest run of digits at the start of the key verse |
| Enrich.FormatKeyVerse | bible_chap_doctrine_wa.py:266-274 | no leading number: unchanged; otherwise a body that unescapes to the verse text (or `""` if missing), then ` (<ref>:<n>)`; that the body is the escaped text is `Enrich.FormattedQuotesEscaped` |
| Enrich.MissingVerseGivesCitation | bible_chap_doctrine_wa.py:271-274 | a verse number the chapter lacks gives the citation alone, starting with a space |
| Enrich.FormattedQuotesEscaped | bible_chap_doctrine_wa.py:273 | every `"` in the formatted verse text is preceded by a backslash |
| Enrich.FormatDependsOnNumberOnly | bible_chap_doctrine_wa.py:267-274 | key verses with the same leading number format identically, whatever follows the number |
| Enrich.LeadingZeroMisses | bible_chap_doctrine_wa.py:264-271 | a number written with a leading zero never finds its verse |
| Enrich.EnrichLesson | bible_chap_doctrine_wa.py:278-279 | only `key_verse` is written; a missing one becomes `""`, a present one is formatted |
| Enrich.EnrichAll | bible_chap_doctrine_wa.py:282-284 | every listed lesson is enriched, and the length is kept |
| Enrich.EnrichKeyVerses | bible_chap_doctrine_wa.py:276-286 | an absent `main_lesson` or `other_lessons` stays absent; each present lesson has only `key_verse` rewritten, to its formatted value |
| Taxonomy.Mentions | bible_chap_doctrine_wa.py:231 | the case-insensitive test holds whenever the label contains the entry as written, and only when the entry is no longer than the label |
| Taxonomy.FirstMention | bible_chap_doctrine_wa.py:230-231 | the loop returns the first entry, in declared order, that the label contains case-insensitively, and none iff no entry matches |
| Taxonomy.PickFrom | bible_chap_doctrine_wa.py:228-242 | principle, doctrine and growth in that order, each iff no earlier list matches and this one does; the first matching entry wins; principles are named by their one-based position; otherwise `Other` with the label as name and text |
| Taxonomy.PickCategory | bible_chap_doctrine_wa.py:227-242 | with the repository's lists: a principle iff the label mentions one, else doctrine iff it mentions a doctrine entry, else growth iff it mentions a growth entry, else `Other` with the label as name and text |
| Taxonomy.PickFirstPrinciple | bible_chap_doctrine_wa.py:230-232 | if principle `i` is the first mentioned, the result is `("Charles Stanley Life Principles", "Charles Stanley Life Principle <i+1>", entry)` |
| Taxonomy.ShortListsHaveNoEmptyEntry | bible_chap_doctrine_wa.py:122-160 | the growth and principle lists hold no empty string |
| Taxonomy.DoctrineHasNoEmptyEntry | bible_chap_doctrine_wa.py:26-120 | the doctrine list holds no empty string |
| Taxonomy.PickedTextEmpty | bible_chap_doctrine_wa.py:242 | with no empty list entry, the picked text is empty only for an empty label |
| Taxonomy.ShadowedNeverFirst | bible_chap_doctrine_wa.py:234-236 | a later entry containing an earlier one is never the first match |
| Taxonomy.GrowthNeverDoctrineEntry | bible_chap_doctrine_wa.py:233-240 | a growth result never names an entry that the doctrine list also holds |
| Taxonomy.DoctrineRepeatsGrowth | bible_chap_doctrine_wa.py:122-127 | Faith, Perseverance, Repentance, Spiritual Warfare and Calling appear in both the growth and the doctrine lists |
| Taxonomy.ShadowedGrowthEntries | bible_chap_doctrine_wa.py:234-240 | a growth result is never Faith, Perseverance, Repentance, Spiritual Warfare or Calling |
| Taxonomy.DoctrineContainments | bible_chap_doctrine_wa.py:44-107 | "Second Coming of Christ" contains the earlier "Second Coming", and "Fall of Satan" contains the earlier "Satan" |
| Taxonomy.ShadowedDoctrineEntries | bible_chap_doctrine_wa.py:234-236 | "Second Coming of Christ" and "Fall of Satan" are never the doctrine entry matched |
| Taxonomy.TrustGodMissesFirstEight | bible_chap_doctrine_wa.py:129-138 | "Trust God beyond what you see" mentions none of the first eight principles |
| Taxonomy.NinthPrinciple | bible_chap_doctrine_wa.py:138 | the ninth principle is "Trust God beyond what you see" |
| Taxonomy.TrustGodIsPrinciple9 | bible_chap_doctrine_wa.py:230-232 | with the repository's principle list, that label is classified as life principle 9, with itself as the text, whatever the other lists hold |
| Taxonomy.PrincipleNineName | bible_chap_doctrine_wa.py:232 | principle 9's lesson name is "Charles Stanley Life Principle 9" |
| Normalize.Normalized | bible_chap_doctrine_wa.py:245-248 | a labelled lesson gets `pick_category`'s category and name for its label, and its picked text or, when that is empty, the label itself as `lesson_text`; every other field is kept |
| Normalize.NormalizeLesson | bible_chap_doctrine_wa.py:245-248 | `KeyError('lesson')` iff the label is missing; otherwise the lesson is normalized as above, so only the three fields change, with a valid category |
| Normalize.LessonTextIsPickedText | bible_chap_doctrine_wa.py:248 | with the repository's lists, the `lesson_text or lesson` fallback never changes the picked text |
| Normalize.NormalizeIdempotent | bible_chap_doctrine_wa.py:244-248 | normalizing a normalized lesson changes nothing |
| Normalize.NormalizeAll | bible_chap_doctrine_wa.py:251-255 | fails with `KeyError('lesson')` iff some listed lesson lacks a label; otherwise each lesson is normalized pointwise and the length is kept |
| Normalize.NormalizeCategories | bible_chap_doctrine_wa.py:244-257 | `KeyError('main_lesson')` when it is absent; `KeyError('lesson')` iff some present lesson lacks a label; on success only the three fields of every lesson change, each with a valid category |
| Pipeline.ClassifyWith | bible_chap_doctrine_wa.py:363-366 | a `fix_json` error is returned unchanged; otherwise the result equals normalizing the parsed record first and enriching it afterwards |
| Pipeline.ClassifyChapter | bible_chap_doctrine_wa.py:363-366 | with the repository's lists: a `ValueError` iff `fix_json` fails, and on success a main lesson with every lesson classified and carrying a `key_verse` |
| Pipeline.ClassifyErrors | bible_chap_doctrine_wa.py:363-366 | a `ValueError` iff `fix_json` failed; a `KeyError` only after `fix_json` succeeded, naming `main_lesson` iff the parsed record lacks it |
| Pipeline.EnrichedNormalizedDelivered | bible_chap_doctrine_wa.py:244-286 | enriching a normalized record leaves a main lesson, and every lesson keeps a valid category and gains a `key_verse` |
| Pipeline.ClassifySucceeds | bible_chap_doctrine_wa.py:363-366 | a successful request has a main lesson, and every lesson has a valid category and a `key_verse` |
| Pipeline.KeyVerseWriteCommutes | bible_chap_doctrine_wa.py:246-248 | writing `key_verse` and writing the three normalized fields can be done in either order |
| Pipeline.LessonStagesCommute | bible_chap_doctrine_wa.py:245-248 | on one lesson, normalizing after enriching equals enriching after normalizing, errors included |
| Pipeline.EnrichKeepsLabels | bible_chap_doctrine_wa.py:251-255 | an enriched list fails normalization exactly when the original does |
| Pipeline.AllStagesCommuteAt | bible_chap_doctrine_wa.py:251-255 | at each position of a fully labelled list, normalizing the enriched lesson gives the enriched normalized lesson |
| Pipeline.AllStagesCommute | bible_chap_doctrine_wa.py:251-255 | the same over a list of lessons |
| Pipeline.StagesCommute | bible_chap_doctrine_wa.py:365-366 | the order of lines 365 and 366 does not matter: same record, same error |
| Pipeline.VerseFiveEnriched | bible_chap_doctrine_wa.py:266-274 | a lesson citing verse 5 gets that verse's text followed by ` (<ref>:5)` |
| Pipeline.PrincipleNineNormalized | bible_chap_doctrine_wa.py:244-248 | a record whose only lesson carries that label gets the principle-9 category, name and text |
| Pipeline.PrincipleNineRecord | bible_chap_doctrine_wa.py:365-366 | a main lesson labelled "Trust God beyond what you see" and citing verse 5 comes out as life principle 9 with the verse text and its citation, with the repository's principle list |

## Left out

- Flask routes and the HTML template: user interface, with no logic to model.
- `fetch_bible_chapter`: network I/O. Its result is the `verses` parameter of `Pipeline.ClassifyWith`.
- A failed second fetch: `enrich_key_verses` fetches the chapter again (line 263). On a non-200 status that fetch returns `None` (lines 18-19), and line 264 then raises `TypeError`, ending the request. `verses` is a list, so the model always has one; the `TypeError` path is not modelled.
- The "Chapter not found." check before the prompt: it only inspects the fetched text before any post-processing.
- Prompt construction and the chat-completion call: string templating for a foreign service. The reply is the `rawOutput` parameter.
- `json.loads`: a library parser. It is the `parse` parameter. Its success value is a record with string-valued lesson fields, and its error value is the text of the `JSONDecodeError`.
- JSON values other than strings in lesson fields, and a `main_lesson` that is not an object: the record type has no room for them.
- An `other_lessons` that is `null` or not a list, and a listed entry that is not an object: these raise `TypeError` or `AttributeError` at lines 251 and 282-283. The record type holds only a list of objects, so those errors are not modelled.
- Top-level keys other than `main_lesson` and `other_lessons`: the parsed record keeps only those two entries. Neither stage reads or writes any other key.
- Unicode case folding: `str.lower` is modelled on ASCII letters only. The list entries' `’` characters pass through unchanged. Regex `\d` is ASCII digits only. `\s` and `str.strip` use Python's full whitespace set.
- The module-level `format_key_verse` (lines 165-171): it is never called. The inner function at line 266 is the one used.
- `bible_chap_cat_webapp.py`, `bible_chapter_category.py` and `app.py`: each is a thin wrapper around a model call, with no post-processing beyond `json.loads` or a membership test.
- Taxonomy.ShadowedDoctrineEntries: names the two shadowed doctrine entries by position in the list (61 and 55). It does not quantify over every entry that contains an earlier one. `Taxonomy.ShadowedNeverFirst` states that general rule.
- Repair.DropQuotesBeforeParens: its own contract is only a length bound, because the pass's content is stated by lemmas: `Repair.DropCopiesPrefix` (text before the first match is copied), `Repair.DropRemovesQuoteAndSpaces` (what a match becomes), `Repair.DropKeepsVisible` and `Repair.DropUnchanged`. Stating it on the function would put that proof into every use of the function.
- Repair.CollapseQuotePairs: its own contract is only a length bound; `Repair.CollapseCopiesPrefix` (text away from pairs is copied), `Repair.CollapseFirstPair` (any pair of quote characters becomes `"`), `Repair.CollapseKeepsNonQuotes` and `Repair.CollapseUnchanged` state what it does.
- Repair.MatchPair: its own contract is only a length bound; `Repair.MatchPairSound` and `Repair.MatchPairComplete` state what it matches, in both directions.
- Repair.EscapePairValues: its own contract says only that the result is empty iff the input is; `Repair.EscapeCopiesPrefix` (text where no match starts is copied), `Repair.EscapePairRewrites` (what a match becomes) and `Repair.EscapePairValuesUnchanged` state the rewrite.
- Text.EscapeQuotes: its own contract is only a length bound; `Text.EscapeRoundTrip` and `Text.EscapeNoQuotes` state what it does.

=== FILE: base.dfy ===
/** Shared vocabulary of the classifier: failure-compatible wrappers, the two
    Python exception shapes the pipeline can raise, and the parsed records the
    three pipeline stages pass along. */
module Base {

  /** An optional value, used for `dict.get` and for regex matches. */
  datatype Option<+T> = None | Some(value: T)

  /** Either a computed value or the exception that aborts the request. */
  datatype Result<+T, +E> = Success(value: T) | Failure(error: E)

  /** The two exception classes the core raises: `ValueError` with its message,
      and `KeyError` naming the missing dictionary key. */
  datatype Error = ValueError(message: string) | KeyError(key: string)

  /** Field names the pipeline reads and writes. */
  const MainLessonKey: string := "main_lesson"
  const LessonKey: string := "lesson"
  const CategoryKey: string := "category"
  const LessonNameKey: string := "lesson_name"
  const LessonTextKey: string := "lesson_text"
  const KeyVerseKey: string := "key_verse"

  /** One lesson object of the parsed JSON: field name to string value. */
  type Lesson = map<string, string>

  /** The parsed top-level JSON object. `main` is the `main_lesson` entry and
      `others` the `other_lessons` list; `None` means the key is absent, which
      the stages must tell apart from an empty list because they never insert
      a key that was not there. */
  datatype Classification = Classification(main: Option<Lesson>, others: Option<seq<Lesson>>)

  /** Python's `d.get(key, default)` on a lesson. */
  function Get(l: Lesson, key: string, default: string): (r: string)
    ensures key in l ==> r == l[key]
    ensures key !in l ==> r == default
  {
    if key in l then l[key] else default
  }

  /** True when `after` is `before` with only the keys in `written` (re)assigned:
      every other key is present in both or in neither, with the same value. */
  ghost predicate OnlyWrites(before: Lesson, after: Lesson, written: set<string>)
  {
    && after.Keys == before.Keys + written
    && forall k :: k in before && k !in written ==> after[k] == before[k]
  }
}

=== FILE: enrich.dfy ===
/** `enrich_key_verses` (bible_chap_doctrine_wa.py, lines 262-286): every
    `key_verse` whose text starts with a verse number is replaced by the text
    of that verse from the fetched chapter, followed by the chapter reference
    and the number. */
module Enrich {
  import opened Base
  import opened Text

  /** One verse of a fetched chapter: its number and its text. */
  datatype Verse = Verse(number: nat, text: string)

  /** The verse map of line 264: `str(number)` to text, for every verse of
      the chapter. */
  function VerseMap(verses: seq<Verse>): (m: map<string, string>)
    ensures forall key :: key in m <==> exists i :: 0 <= i < |verses| && NatToDecimal(verses[i].number) == key
  {
    if |verses| == 0 then map[]
    else
      var front := verses[..|verses| - 1];
      assert forall i :: 0 <= i < |front| ==> front[i] == verses[i];
      VerseMap(front)[NatToDecimal(verses[|verses| - 1].number) := verses[|verses| - 1].text]
  }

  /** When two verses share a number the later one wins, as in a Python dict
      comprehension: the map holds the text of the last verse with each number. */
  lemma {:induction false} VerseMapLastWins(verses: seq<Verse>, i: int)
    requires 0 <= i < |verses|
    requires forall j :: i < j < |verses| ==> verses[j].number != verses[i].number
    ensures NatToDecimal(verses[i].number) in VerseMap(verses)
    ensures VerseMap(verses)[NatToDecimal(verses[i].number)] == verses[i].text
  {
    var front := verses[..|verses| - 1];
    var last := verses[|verses| - 1];
    if i < |verses| - 1 {
      assert front[i] == verses[i];
      VerseMapLastWins(front, i);
      if NatToDecimal(last.number) == NatToDecimal(verses[i].number) {
        DecimalInjective(last.number, verses[i].number);
      }
    }
  }

  /** The verse-number prefix `re.match(r'(\d+)', kv)` captures: the longest
      run of digits at the start of `s` (empty when there is none). */
  function LeadingDigits(s: string): (r: string)
    ensures |r| <= |s| && r == s[..|r|]
    ensures AllDigits(r)
    ensures |r| == |s| || !IsDigit(s[|r|])
  {
    if |s| > 0 && IsDigit(s[0]) then [s[0]] + LeadingDigits(s[1..]) else []
  }

  /** The suffix that names the verse: ` (<ref>:<number>)`. */
  function Citation(chapterRef: string, number: string): (r: string)
  {
    " (" + chapterRef + ":" + number + ")"
  }

  /** The inner `format_key_verse(kv)`: a key verse without a leading number
      is kept; otherwise it becomes the escaped verse text (empty when the
      chapter has no such verse) followed by the citation. */
  function FormatKeyVerse(kv: string, verseMap: map<string, string>, chapterRef: string): (r: string)
    ensures |LeadingDigits(kv)| == 0 ==> r == kv
    ensures |LeadingDigits(kv)| > 0 ==>
              exists body :: r == body + Citation(chapterRef, LeadingDigits(kv))
                             && UnescapeQuotes(body) == Get(verseMap, LeadingDigits(kv), "")
  {
    var number := LeadingDigits(kv);
    if |number| == 0 then kv
    else
      var text := Get(verseMap, number, "");
      EscapeRoundTrip(text);
      EscapeQuotes(text) + Citation(chapterRef, number)
  }

  /** A verse number the chapter lacks is not an error: the verse text is
      empty and the result is the citation alone, leading space included. */
  lemma MissingVerseGivesCitation(kv: string, verseMap: map<string, string>, chapterRef: string)
    requires |LeadingDigits(kv)| > 0 && LeadingDigits(kv) !in verseMap
    ensures FormatKeyVerse(kv, verseMap, chapterRef) == Citation(chapterRef, LeadingDigits(kv))
    ensures FormatKeyVerse(kv, verseMap, chapterRef)[0] == ' '
  {
  }

  /** Every double quote in the formatted verse text comes escaped. */
  lemma FormattedQuotesEscaped(kv: string, verseMap: map<string, string>, chapterRef: string)
    requires |LeadingDigits(kv)| > 0
    ensures var body := EscapeQuotes(Get(verseMap, LeadingDigits(kv), ""));
            && FormatKeyVerse(kv, verseMap, chapterRef) == body + Citation(chapterRef, LeadingDigits(kv))
            && forall i :: 0 <= i < |body| && body[i] == '"' ==> i > 0 && body[i - 1] == '\\'
  {
    EscapedQuotesGuarded(Get(verseMap, LeadingDigits(kv), ""));
  }

  /** Only what follows the digit run is ignored: two key verses with the same
      leading number format alike. */
  lemma FormatDependsOnNumberOnly(kv1: string, kv2: string, verseMap: map<string, string>, chapterRef: string)
    requires |LeadingDigits(kv1)| > 0 && LeadingDigits(kv1) == LeadingDigits(kv2)
    ensures FormatKeyVerse(kv1, verseMap, chapterRef) == FormatKeyVerse(kv2, verseMap, chapterRef)
  {
  }

  /** A number written with a leading zero ("05") never finds its verse in a
      map built from verse numbers, since `str(n)` never starts with `0`
      unless it is `"0"`. */
  lemma LeadingZeroMisses(kv: string, verses: seq<Verse>)
    requires |LeadingDigits(kv)| >= 2 && kv[0] == '0'
    ensures LeadingDigits(kv) !in VerseMap(verses)
  {
  }

  /** The key verse of one lesson, `lesson.get('key_verse', '')` formatted and
      stored back: only `key_verse` is written, and a lesson without one gets
      `""`. */
  function EnrichLesson(l: Lesson, verseMap: map<string, string>, chapterRef: string): (r: Lesson)
    ensures OnlyWrites(l, r, {KeyVerseKey})
    ensures KeyVerseKey !in l ==> r[KeyVerseKey] == ""
    ensures KeyVerseKey in l ==> r[KeyVerseKey] == FormatKeyVerse(l[KeyVerseKey], verseMap, chapterRef)
  {
    l[KeyVerseKey := FormatKeyVerse(Get(l, KeyVerseKey, ""), verseMap, chapterRef)]
  }

  /** The loop over `other_lessons`. */
  function EnrichAll(ls: seq<Lesson>, verseMap: map<string, string>, chapterRef: string): (r: seq<Lesson>)
    ensures |r| == |ls|
    ensures forall i :: 0 <= i < |ls| ==> r[i] == EnrichLesson(ls[i], verseMap, chapterRef)
  {
    if |ls| == 0 then [] else [EnrichLesson(ls[0], verseMap, chapterRef)] + EnrichAll(ls[1..], verseMap, chapterRef)
  }

  /** `enrich_key_verses(result, chapter_ref)` with the fetched chapter as its
      verse map: an absent `main_lesson` is skipped and an absent
      `other_lessons` stays absent; every present lesson is enriched in place. */
  function EnrichKeyVerses(c: Classification, verseMap: map<string, string>, chapterRef: string): (r: Classification)
    ensures r.main.Some? <==> c.main.Some?
    ensures r.others.Some? <==> c.others.Some?
    ensures c.main.Some? ==>
              && OnlyWrites(c.main.value, r.main.value, {KeyVerseKey})
              && r.main.value[KeyVerseKey] == FormatKeyVerse(Get(c.main.value, KeyVerseKey, ""), verseMap, chapterRef)
    ensures c.others.Some? ==> |r.others.value| == |c.others.value|
    ensures c.others.Some? ==>
              forall i :: 0 <= i < |c.others.value| ==>
                && OnlyWrites(c.others.value[i], r.others.value[i], {KeyVerseKey})
                && r.others.value[i][KeyVerseKey] == FormatKeyVerse(Get(c.others.value[i], KeyVerseKey, ""), verseMap, chapterRef)
  {
    Classification(
      if c.main.Some? then Some(EnrichLesson(c.main.value, verseMap, chapterRef)) else None,
      if c.others.Some? then Some(EnrichAll(c.others.value, verseMap, chapterRef)) else None)
  }
}

=== FILE: normalize.dfy ===
/** `normalize_categories` (bible_chap_doctrine_wa.py, lines 227-257): every
    lesson's `lesson` label is classified by `pick_category`, and the result is
    written into its `category`, `lesson_name` and `lesson_text` fields. */
module Normalize {
  import opened Base
  import opened Taxonomy

  /** The three fields normalization writes. */
  const NormalizedKeys: set<string> := {CategoryKey, LessonNameKey, LessonTextKey}

  /** Assigns the three normalized fields, leaving every other field alone. */
  function WriteFields(l: Lesson, category: string, name: string, text: string): (r: Lesson)
    ensures OnlyWrites(l, r, NormalizedKeys)
    ensures r[CategoryKey] == category && r[LessonNameKey] == name && r[LessonTextKey] == text
  {
    l[CategoryKey := category][LessonNameKey := name][LessonTextKey := text]
  }

  /** The field assignments for one lesson, given that it has a `lesson`
      label: `category` and `lesson_name` are what `pick_category` picks for
      the label, and `lesson_text` is the picked text, falling back to the
      label when that text is empty (`lesson_text or lesson`). */
  function Normalized(lists: CategoryLists, l: Lesson): (r: Lesson)
    requires LessonKey in l
    ensures OnlyWrites(l, r, NormalizedKeys)
    ensures IsCategory(r[CategoryKey])
    ensures var p := PickFrom(lists, l[LessonKey]);
            && r[CategoryKey] == p.category
            && r[LessonNameKey] == p.name
            && r[LessonTextKey] == (if p.text == "" then l[LessonKey] else p.text)
  {
    var p := PickFrom(lists, l[LessonKey]);
    WriteFields(l, p.category, p.name, if p.text == "" then l[LessonKey] else p.text)
  }

  /** One lesson: `l["lesson"]` raises `KeyError` when the label is missing. */
  function NormalizeLesson(lists: CategoryLists, l: Lesson): (r: Result<Lesson, Error>)
    ensures r.Failure? <==> LessonKey !in l
    ensures r.Failure? ==> r.error == KeyError(LessonKey)
    ensures r.Success? ==> r.value == Normalized(lists, l)
    ensures r.Success? ==> OnlyWrites(l, r.value, NormalizedKeys) && IsCategory(r.value[CategoryKey])
  {
    if LessonKey !in l then Failure(KeyError(LessonKey)) else Success(Normalized(lists, l))
  }

  /** The `lesson_text or lesson` fallback never changes the outcome: since no
      list entry is empty, the picked text is empty only for an empty label,
      and then the fallback is that same empty label. */
  lemma LessonTextIsPickedText(l: Lesson)
    requires LessonKey in l
    ensures Normalized(RepositoryLists, l)[LessonTextKey] == PickCategory(l[LessonKey]).text
  {
    ShortListsHaveNoEmptyEntry();
    DoctrineHasNoEmptyEntry();
    PickedTextEmpty(RepositoryLists, l[LessonKey]);
  }

  /** Normalizing a normalized lesson changes nothing: the label it reads is
      not among the fields it writes. */
  lemma NormalizeIdempotent(lists: CategoryLists, l: Lesson)
    requires LessonKey in l
    ensures NormalizeLesson(lists, Normalized(lists, l)) == Success(Normalized(lists, l))
  {
    var n := Normalized(lists, l);
    assert n[LessonKey] == l[LessonKey];
    assert Normalized(lists, n) == n;
  }

  /** The loop over `other_lessons`: a lesson without a label aborts the
      loop with `KeyError('lesson')`, whichever lesson it is, and otherwise
      every lesson is normalized in place. */
  function NormalizeAll(lists: CategoryLists, ls: seq<Lesson>): (r: Result<seq<Lesson>, Error>)
    ensures r.Failure? <==> exists i :: 0 <= i < |ls| && LessonKey !in ls[i]
    ensures r.Failure? ==> r.error == KeyError(LessonKey)
    ensures r.Success? ==> |r.value| == |ls|
    ensures r.Success? ==> forall i :: 0 <= i < |ls| ==> NormalizeLesson(lists, ls[i]) == Success(r.value[i])
    ensures r.Success? ==> forall i :: 0 <= i < |ls| ==>
              OnlyWrites(ls[i], r.value[i], NormalizedKeys) && IsCategory(r.value[i][CategoryKey])
  {
    if exists i :: 0 <= i < |ls| && LessonKey !in ls[i] then Failure(KeyError(LessonKey))
    else Success(seq(|ls|, i requires 0 <= i < |ls| => Normalized(lists, ls[i])))
  }

  /** `normalize_categories(result)`: `result["main_lesson"]` raises
      `KeyError('main_lesson')` when absent; the main lesson is normalized
      first, then every entry of `other_lessons` (an absent list stays
      absent). */
  function NormalizeCategories(lists: CategoryLists, c: Classification): (r: Result<Classification, Error>)
    ensures c.main.None? ==> r == Failure(KeyError(MainLessonKey))
    ensures c.main.Some? ==>
              (r.Failure? <==> LessonKey !in c.main.value
                               || (c.others.Some? && exists i :: 0 <= i < |c.others.value| && LessonKey !in c.others.value[i]))
    ensures c.main.Some? && r.Failure? ==> r.error == KeyError(LessonKey)
    ensures r.Success? ==>
              && r.value.main.Some? && NormalizeLesson(lists, c.main.value) == Success(r.value.main.value)
              && (r.value.others.Some? <==> c.others.Some?)
              && (c.others.Some? ==> NormalizeAll(lists, c.others.value) == Success(r.value.others.value))
    ensures r.Success? ==>
              && OnlyWrites(c.main.value, r.value.main.value, NormalizedKeys)
              && IsCategory(r.value.main.value[CategoryKey])
              && (c.others.Some? ==>
                    && |r.value.others.value| == |c.others.value|
                    && (forall i :: 0 <= i < |c.others.value| ==>
                          OnlyWrites(c.others.value[i], r.value.others.value[i], NormalizedKeys)
                          && IsCategory(r.value.others.value[i][CategoryKey])))
  {
    if c.main.None? then Failure(KeyError(MainLessonKey))
    else
      match NormalizeLesson(lists, c.main.value)
      case Failure(e) => Failure(e)
      case Success(main) =>
        if c.others.None? then Success(Classification(Some(main), None))
        else
          match NormalizeAll(lists, c.others.value)
          case Failure(e) => Failure(e)
          case Success(others) => Success(Classification(Some(main), Some(others)))
  }
}

=== FILE: pipeline.dfy ===
/** The post-processing of `classify_chapter_internal`
    (bible_chap_doctrine_wa.py, lines 363-366): the model's reply is stripped,
    repaired and parsed by `fix_json`, its key verses are enriched from the
    fetched chapter, and its lessons are classified by `normalize_categories`. */
module Pipeline {
  import opened Base
  import opened Text
  import opened Repair
  import opened Enrich
  import opened Taxonomy
  import opened Normalize

  /** The whole post-processing over any category lists: a `fix_json`
      failure ends the request with that error; otherwise the parsed record
      is enriched and then normalized, which gives the same outcome as
      normalizing it first and enriching the normalized record. */
  function ClassifyWith(lists: CategoryLists, rawOutput: string, parse: string -> Result<Classification, string>,
                        verses: seq<Verse>, chapterRef: string): (r: Result<Classification, Error>)
    ensures FixJson(Strip(rawOutput), parse).Failure? ==> r == FixJson(Strip(rawOutput), parse)
    ensures FixJson(Strip(rawOutput), parse).Success? ==>
              r == (match NormalizeCategories(lists, FixJson(Strip(rawOutput), parse).value)
                    case Failure(e) => Failure(e)
                    case Success(n) => Success(EnrichKeyVerses(n, VerseMap(verses), chapterRef)))
  {
    match FixJson(Strip(rawOutput), parse)
    case Failure(e) => Failure(e)
    case Success(c) =>
      StagesCommute(lists, c, VerseMap(verses), chapterRef);
      NormalizeCategories(lists, EnrichKeyVerses(c, VerseMap(verses), chapterRef))
  }

  /** Which stage raised the error a request ends with: a `ValueError` comes
      only from `fix_json`; a `KeyError` only from `normalize_categories`, and
      names `main_lesson` exactly when the parsed record lacks it. */
  lemma ClassifyErrors(lists: CategoryLists, rawOutput: string, parse: string -> Result<Classification, string>,
                       verses: seq<Verse>, chapterRef: string)
    ensures var r := ClassifyWith(lists, rawOutput, parse, verses, chapterRef);
            var fixed := FixJson(Strip(rawOutput), parse);
            && (r.Failure? && r.error.ValueError? <==> fixed.Failure?)
            && (r.Failure? && r.error.KeyError? ==>
                  fixed.Success? && (r.error == KeyError(MainLessonKey) <==> fixed.value.main.None?))
  {
    var fixed := FixJson(Strip(rawOutput), parse);
    if fixed.Success? {
      var enriched := EnrichKeyVerses(fixed.value, VerseMap(verses), chapterRef);
      assert enriched.main.Some? <==> fixed.value.main.Some?;
      var r := NormalizeCategories(lists, enriched);
      assert ClassifyWith(lists, rawOutput, parse, verses, chapterRef) == r;
      assert r.Failure? ==> r.error.KeyError?;
    }
  }

  /** What a successful request hands back: a main lesson, and every lesson
      carries a category among the four and a `key_verse` field. */
  ghost predicate Delivered(x: Classification)
  {
    && x.main.Some?
    && CategoryKey in x.main.value && IsCategory(x.main.value[CategoryKey])
    && KeyVerseKey in x.main.value
    && (x.others.Some? ==>
          forall i :: 0 <= i < |x.others.value| ==>
            && CategoryKey in x.others.value[i] && IsCategory(x.others.value[i][CategoryKey])
            && KeyVerseKey in x.others.value[i])
  }

  /** Enriching a normalized record gives a delivered record. */
  lemma EnrichedNormalizedDelivered(lists: CategoryLists, c: Classification, verseMap: map<string, string>, chapterRef: string)
    requires NormalizeCategories(lists, c).Success?
    ensures Delivered(EnrichKeyVerses(NormalizeCategories(lists, c).value, verseMap, chapterRef))
  {
    var n := NormalizeCategories(lists, c).value;
    var e := EnrichKeyVerses(n, verseMap, chapterRef);
    assert CategoryKey != KeyVerseKey;
    if e.others.Some? {
      forall i | 0 <= i < |e.others.value|
        ensures CategoryKey in e.others.value[i] && IsCategory(e.others.value[i][CategoryKey])
      {
        assert e.others.value[i][CategoryKey] == n.others.value[i][CategoryKey];
      }
    }
  }

  /** A successful request returns a main lesson, and every lesson has a
      category among the four and a `key_verse` field. */
  lemma ClassifySucceeds(lists: CategoryLists, rawOutput: string, parse: string -> Result<Classification, string>,
                         verses: seq<Verse>, chapterRef: string)
    ensures var r := ClassifyWith(lists, rawOutput, parse, verses, chapterRef);
            r.Success? ==> Delivered(r.value)
  {
    var fixed := FixJson(Strip(rawOutput), parse);
    if fixed.Success? && NormalizeCategories(lists, fixed.value).Success? {
      EnrichedNormalizedDelivered(lists, fixed.value, VerseMap(verses), chapterRef);
    }
  }

  /** `classify_chapter_internal` after the model has replied, with the
      repository's lists: a `ValueError` exactly when `fix_json` fails, and
      on success a delivered record. */
  function ClassifyChapter(rawOutput: string, parse: string -> Result<Classification, string>,
                           verses: seq<Verse>, chapterRef: string): (r: Result<Classification, Error>)
    ensures r.Failure? && r.error.ValueError? <==> FixJson(Strip(rawOutput), parse).Failure?
    ensures r.Success? ==> Delivered(r.value)
  {
    ClassifyErrors(RepositoryLists, rawOutput, parse, verses, chapterRef);
    ClassifySucceeds(RepositoryLists, rawOutput, parse, verses, chapterRef);
    ClassifyWith(RepositoryLists, rawOutput, parse, verses, chapterRef)
  }

  /* ---------------------------------------------------------------------- */
  /* The two record stages commute                                          */
  /* ---------------------------------------------------------------------- */

  /** Writing `key_verse` before or after the three normalized fields gives
      the same lesson. */
  lemma KeyVerseWriteCommutes(l: Lesson, v: string, category: string, name: string, text: string)
    ensures WriteFields(l[KeyVerseKey := v], category, name, text) == WriteFields(l, category, name, text)[KeyVerseKey := v]
  {
    assert KeyVerseKey !in NormalizedKeys;
  }

  /** On one lesson, enrichment and normalization write disjoint fields and
      neither reads what the other writes, so their order does not matter. */
  lemma LessonStagesCommute(lists: CategoryLists, l: Lesson, verseMap: map<string, string>, chapterRef: string)
    ensures NormalizeLesson(lists, EnrichLesson(l, verseMap, chapterRef))
            == (match NormalizeLesson(lists, l)
                case Failure(e) => Failure(e)
                case Success(n) => Success(EnrichLesson(n, verseMap, chapterRef)))
  {
    if LessonKey in l {
      var v := FormatKeyVerse(Get(l, KeyVerseKey, ""), verseMap, chapterRef);
      var e := l[KeyVerseKey := v];
      assert e[LessonKey] == l[LessonKey];
      var p := PickFrom(lists, l[LessonKey]);
      var text := if p.text == "" then l[LessonKey] else p.text;
      KeyVerseWriteCommutes(l, v, p.category, p.name, text);
      var n := WriteFields(l, p.category, p.name, text);
      assert Get(n, KeyVerseKey, "") == Get(l, KeyVerseKey, "");
    }
  }

  /** Enrichment keeps every lesson's label, so the enriched list fails
      normalization exactly when the original does. */
  lemma EnrichKeepsLabels(lists: CategoryLists, ls: seq<Lesson>, verseMap: map<string, string>, chapterRef: string)
    ensures NormalizeAll(lists, EnrichAll(ls, verseMap, chapterRef)).Failure? <==> NormalizeAll(lists, ls).Failure?
  {
    var es := EnrichAll(ls, verseMap, chapterRef);
    assert forall i :: 0 <= i < |ls| ==> (LessonKey in es[i] <==> LessonKey in ls[i]);
  }

  /** One position of a fully labelled list: normalizing the enriched lesson
      gives the enriched normalized lesson. */
  lemma AllStagesCommuteAt(lists: CategoryLists, ls: seq<Lesson>, verseMap: map<string, string>, chapterRef: string, i: int)
    requires NormalizeAll(lists, ls).Success? && 0 <= i < |ls|
    ensures NormalizeLesson(lists, EnrichLesson(ls[i], verseMap, chapterRef))
            == Success(EnrichLesson(NormalizeAll(lists, ls).value[i], verseMap, chapterRef))
  {
    LessonStagesCommute(lists, ls[i], verseMap, chapterRef);
  }

  /** The same over a list of lessons. */
  lemma AllStagesCommute(lists: CategoryLists, ls: seq<Lesson>, verseMap: map<string, string>, chapterRef: string)
    ensures NormalizeAll(lists, EnrichAll(ls, verseMap, chapterRef))
            == (match NormalizeAll(lists, ls)
                case Failure(e) => Failure(e)
                case Success(ns) => Success(EnrichAll(ns, verseMap, chapterRef)))
  {
    var es := EnrichAll(ls, verseMap, chapterRef);
    EnrichKeepsLabels(lists, ls, verseMap, chapterRef);
    if NormalizeAll(lists, ls).Success? {
      var ns := NormalizeAll(lists, ls).value;
      var after := NormalizeAll(lists, es).value;
      var ens := EnrichAll(ns, verseMap, chapterRef);
      forall i | 0 <= i < |ls|
        ensures after[i] == ens[i]
      {
        AllStagesCommuteAt(lists, ls, verseMap, chapterRef, i);
      }
      assert after == ens;
    }
  }

  /** Running `normalize_categories` before `enrich_key_verses` instead of
      after it gives the same record and the same error. */
  lemma StagesCommute(lists: CategoryLists, c: Classification, verseMap: map<string, string>, chapterRef: string)
    ensures NormalizeCategories(lists, EnrichKeyVerses(c, verseMap, chapterRef))
            == (match NormalizeCategories(lists, c)
                case Failure(e) => Failure(e)
                case Success(n) => Success(EnrichKeyVerses(n, verseMap, chapterRef)))
  {
    if c.main.Some? {
      LessonStagesCommute(lists, c.main.value, verseMap, chapterRef);
      if c.others.Some? {
        AllStagesCommute(lists, c.others.value, verseMap, chapterRef);
      }
    }
  }

  /* ---------------------------------------------------------------------- */
  /* A worked record                                                        */
  /* ---------------------------------------------------------------------- */

  /** Enriching a lesson that cites verse 5 of a chapter whose only verse is
      verse 5. */
  lemma VerseFiveEnriched(lbl: string, text: string, chapterRef: string)
    requires '"' !in text
    ensures EnrichLesson(map[LessonKey := lbl, KeyVerseKey := "5"], VerseMap([Verse(5, text)]), chapterRef)
            == map[LessonKey := lbl, KeyVerseKey := text + Citation(chapterRef, "5")]
  {
    var verseMap := VerseMap([Verse(5, text)]);
    assert NatToDecimal(5) == "5";
    assert [Verse(5, text)][..0] == [];
    assert verseMap == map["5" := text];
    assert LeadingDigits("5") == "5";
    EscapeNoQuotes(text);
    assert FormatKeyVerse("5", verseMap, chapterRef) == text + Citation(chapterRef, "5");
  }

  /** A record whose only lesson is labelled with the ninth life principle
      is normalized to that principle. */
  lemma PrincipleNineNormalized(lists: CategoryLists, l: Lesson)
    requires lists.principles == PrincipleList && LessonKey in l && l[LessonKey] == TrustGod
    ensures NormalizeCategories(lists, Classification(Some(l), None))
            == Success(Classification(Some(WriteFields(l, PrinciplesCategory, PrincipleName(9), TrustGod)), None))
  {
    TrustGodIsPrinciple9(lists, l[LessonKey]);
  }

  /** A main lesson labelled with the ninth life principle and citing verse 5
      of a chapter whose fifth verse is `text`: the key verse becomes the
      verse text with its citation, and the lesson is filed as that
      principle, whatever the doctrine and growth lists hold, since the
      principles are searched first. */
  lemma PrincipleNineRecord(lists: CategoryLists, lbl: string, text: string, chapterRef: string)
    requires lists.principles == PrincipleList && lbl == TrustGod && '"' !in text
    ensures var c := Classification(Some(map[LessonKey := lbl, KeyVerseKey := "5"]), None);
            var r := NormalizeCategories(lists, EnrichKeyVerses(c, VerseMap([Verse(5, text)]), chapterRef));
            && r.Success? && r.value.others.None?
            && r.value.main.value == map[LessonKey := lbl,
                                         KeyVerseKey := text + Citation(chapterRef, "5"),
                                         CategoryKey := "Charles Stanley Life Principles",
                                         LessonNameKey := "Charles Stanley Life Principle 9",
                                         LessonTextKey := lbl]
  {
    VerseFiveEnriched(lbl, text, chapterRef);
    var e := map[LessonKey := lbl, KeyVerseKey := text + Citation(chapterRef, "5")];
    PrincipleNineNormalized(lists, e);
    PrincipleNineName();
  }
}

=== FILE: repair.dfy ===
/** `fix_json` (bible_chap_doctrine_wa.py, lines 176-217): a `str.replace`
    and three regex passes that repair quote characters, one regex pass that
    escapes apostrophes inside `"key": "value"` pairs, extraction of the
    outermost `{...}` span, and the hand-off to the JSON parser.

    Every `re.sub` is modelled as Python performs it: the leftmost match is
    replaced, scanning resumes right after it, and where no match starts the
    character is copied and scanning resumes one position further. The
    functions below recurse on the unscanned suffix, so "a match at the start
    of `s`" is the only regex question each pass asks. */
module Repair {
  import opened Base
  import opened Text

  /* ---------------------------------------------------------------------- */
  /* Line 184: `text.replace("“", "'")`                                     */
  /* ---------------------------------------------------------------------- */

  function ReplaceLeftQuotes(s: string): (r: string)
    ensures |r| == |s|
    ensures LeftQuote !in r
    ensures forall i :: 0 <= i < |s| && s[i] != LeftQuote ==> r[i] == s[i]
    ensures forall i :: 0 <= i < |s| && s[i] == LeftQuote ==> r[i] == '\''
  {
    ReplaceChar(s, LeftQuote, '\'')
  }

  /* ---------------------------------------------------------------------- */
  /* Line 185: `re.sub(r'["“”]\s*(?=\()', '', cleaned)`                     */
  /* ---------------------------------------------------------------------- */

  /** End of the whitespace run that starts at `i`. */
  function SkipSpaces(s: string, i: nat): (j: nat)
    requires i <= |s|
    ensures i <= j <= |s|
    ensures forall k :: i <= k < j ==> IsSpace(s[k])
    ensures j == |s| || !IsSpace(s[j])
    decreases |s| - i
  {
    if i < |s| && IsSpace(s[i]) then SkipSpaces(s, i + 1) else i
  }

  /** The pattern matches at the start of `s`: a quote character whose
      following whitespace run is directly followed by `(`. Greedy `\s*` with
      backtracking can only succeed at the end of the whole run, because every
      shorter run is followed by whitespace, not by `(`. */
  predicate QuoteBeforeParen(s: string)
  {
    && |s| > 0
    && IsQuote(s[0])
    && SkipSpaces(s, 1) < |s|
    && s[SkipSpaces(s, 1)] == '('
  }

  /** Deletes each such quote with its whitespace run; the `(` is only looked
      at, so scanning resumes on it. */
  function DropQuotesBeforeParens(s: string): (r: string)
    ensures |r| <= |s|
    decreases |s|
  {
    if |s| == 0 then []
    else if QuoteBeforeParen(s) then DropQuotesBeforeParens(s[SkipSpaces(s, 1)..])
    else [s[0]] + DropQuotesBeforeParens(s[1..])
  }

  /** The characters line 185 never deletes: neither quotes nor whitespace. */
  predicate IsVisible(c: char)
  {
    !IsQuote(c) && !IsSpace(c)
  }

  /** Line 185 deletes only quotes and whitespace: every other character,
      `(` included, survives in its original order. */
  lemma {:induction false} DropKeepsVisible(s: string)
    ensures Filter(DropQuotesBeforeParens(s), IsVisible) == Filter(s, IsVisible)
    decreases |s|
  {
    if |s| > 0 {
      if QuoteBeforeParen(s) {
        var j := SkipSpaces(s, 1);
        assert Filter(s, IsVisible) == Filter(s[j..], IsVisible) by {
          assert s == s[..j] + s[j..];
          FilterConcat(s[..j], s[j..], IsVisible);
          FilterNone(s[..j], IsVisible);
        }
        DropKeepsVisible(s[j..]);
      } else {
        assert Filter(s, IsVisible) == Filter([s[0]], IsVisible) + Filter(s[1..], IsVisible) by {
          assert s == [s[0]] + s[1..];
          FilterConcat([s[0]], s[1..], IsVisible);
        }
        DropKeepsVisible(s[1..]);
        FilterConcat([s[0]], DropQuotesBeforeParens(s[1..]), IsVisible);
      }
    }
  }


  /** A quote, a whitespace run and `(` lose the quote and the run. */
  lemma DropRemovesQuoteAndSpaces(q: char, spaces: string, rest: string)
    requires IsQuote(q)
    requires forall i :: 0 <= i < |spaces| ==> IsSpace(spaces[i])
    ensures DropQuotesBeforeParens([q] + spaces + "(" + rest) == "(" + DropQuotesBeforeParens(rest)
  {
    var s := [q] + spaces + "(" + rest;
    assert s[1 + |spaces|] == '(';
    assert SkipSpaces(s, 1) == 1 + |spaces| by {
      SkipSpacesOver(s, 1, 1 + |spaces|);
    }
    assert s[1 + |spaces|..] == "(" + rest;
    assert ("(" + rest)[1..] == rest;
  }

  /** The whitespace run from `i` ends at `j` when `s[i..j]` is whitespace and `s[j]` is not. */
  lemma {:induction false} SkipSpacesOver(s: string, i: nat, j: nat)
    requires i <= j < |s|
    requires forall k :: i <= k < j ==> IsSpace(s[k])
    requires !IsSpace(s[j])
    ensures SkipSpaces(s, i) == j
    decreases j - i
  {
    if i < j {
      SkipSpacesOver(s, i + 1, j);
    }
  }

  /** No suffix of `s` starts with a match of line 185's pattern. */
  ghost predicate NoQuoteBeforeParen(s: string)
  {
    forall i :: 0 <= i <= |s| ==> !QuoteBeforeParen(s[i..])
  }

  /** Where the pattern never matches, line 185 changes nothing. */
  lemma {:induction false} DropUnchanged(s: string)
    requires NoQuoteBeforeParen(s)
    ensures DropQuotesBeforeParens(s) == s
    decreases |s|
  {
    if |s| > 0 {
      assert !QuoteBeforeParen(s[0..]);
      assert s[0..] == s;
      assert forall i :: 0 <= i <= |s[1..]| ==> s[1..][i..] == s[i + 1..];
      DropUnchanged(s[1..]);
      assert s == [s[0]] + s[1..];
    }
  }

  /** Text in which no match of line 185's pattern starts is copied: the
      pass reaches the rest of the text with that prefix unchanged. */
  lemma DropCopiesPrefix(pre: string, s: string)
    requires forall i :: 0 <= i < |pre| ==> !QuoteBeforeParen((pre + s)[i..])
    ensures DropQuotesBeforeParens(pre + s) == pre + DropQuotesBeforeParens(s)
  {
    forall t | |t| > 0 && !QuoteBeforeParen(t)
      ensures DropQuotesBeforeParens(t) == [t[0]] + DropQuotesBeforeParens(t[1..])
    {
      assert t == [t[0]] + t[1..];
    }
    ScanCopiesPrefix(DropQuotesBeforeParens, t => QuoteBeforeParen(t), pre, s);
  }

  /* ---------------------------------------------------------------------- */
  /* Line 186: `re.sub(r'[\"“”]{2}', '"', cleaned)`                         */
  /* ---------------------------------------------------------------------- */

  /** Two quote characters (of any of the three kinds) at the start of `s`. */
  predicate QuotePair(s: string)
  {
    |s| >= 2 && IsQuote(s[0]) && IsQuote(s[1])
  }

  /** Replaces each pair of quotes, taken left to right without overlap, by one `"`. */
  function CollapseQuotePairs(s: string): (r: string)
    ensures |r| <= |s|
  {
    if QuotePair(s) then "\"" + CollapseQuotePairs(s[2..])
    else if |s| == 0 then []
    else [s[0]] + CollapseQuotePairs(s[1..])
  }

  predicate NotQuote(c: char)
  {
    !IsQuote(c)
  }

  /** Line 186 touches quote characters only: the rest of the text is kept in order. */
  lemma {:induction false} CollapseKeepsNonQuotes(s: string)
    ensures Filter(CollapseQuotePairs(s), NotQuote) == Filter(s, NotQuote)
  {
    if QuotePair(s) {
      var t := s[2..];
      CollapseKeepsNonQuotes(t);
      assert s == [s[0]] + ([s[1]] + t);
      FilterCons(s[0], [s[1]] + t, NotQuote);
      FilterCons(s[1], t, NotQuote);
      FilterCons('"', CollapseQuotePairs(t), NotQuote);
    } else if |s| > 0 {
      var t := s[1..];
      CollapseKeepsNonQuotes(t);
      assert s == [s[0]] + t;
      FilterCons(s[0], t, NotQuote);
      FilterCons(s[0], CollapseQuotePairs(t), NotQuote);
    }
  }

  /** No two quote characters are adjacent anywhere in `s`. */
  ghost predicate NoQuotePair(s: string)
  {
    forall i :: 0 <= i <= |s| ==> !QuotePair(s[i..])
  }

  /** Without adjacent quotes, line 186 changes nothing. */
  lemma {:induction false} CollapseUnchanged(s: string)
    requires NoQuotePair(s)
    ensures CollapseQuotePairs(s) == s
  {
    if |s| > 0 {
      assert s[0..] == s;
      assert forall i :: 0 <= i <= |s[1..]| ==> s[1..][i..] == s[i + 1..];
      CollapseUnchanged(s[1..]);
      assert s == [s[0]] + s[1..];
    }
  }

  /** Text in which no two quote characters are adjacent is copied: the pass
      reaches the rest of the text with that prefix unchanged. */
  lemma CollapseCopiesPrefix(pre: string, s: string)
    requires forall i :: 0 <= i < |pre| ==> !QuotePair((pre + s)[i..])
    ensures CollapseQuotePairs(pre + s) == pre + CollapseQuotePairs(s)
  {
    forall t | |t| > 0 && !QuotePair(t)
      ensures CollapseQuotePairs(t) == [t[0]] + CollapseQuotePairs(t[1..])
    {
      assert t == [t[0]] + t[1..];
    }
    ScanCopiesPrefix(CollapseQuotePairs, t => QuotePair(t), pre, s);
  }

  /** A prefix without adjacent quotes, ending in no quote, holds no pair
      whatever follows it. */
  lemma NoPairInPrefix(pre: string, s: string)
    requires NoQuotePair(pre) && (|pre| == 0 || !IsQuote(pre[|pre| - 1]))
    ensures forall i :: 0 <= i < |pre| ==> !QuotePair((pre + s)[i..])
  {
    forall i | 0 <= i < |pre|
      ensures !QuotePair((pre + s)[i..])
    {
      var t := (pre + s)[i..];
      assert t[0] == pre[i];
      if i + 1 < |pre| {
        assert !QuotePair(pre[i..]);
        assert t[1] == pre[i + 1];
      }
    }
  }

  /** The first pair of quote characters, of any of the three kinds, becomes
      one straight `"`; the text before it is copied, and the scan goes on
      right after the pair. */
  lemma CollapseFirstPair(pre: string, q1: char, q2: char, post: string)
    requires IsQuote(q1) && IsQuote(q2)
    requires NoQuotePair(pre) && (|pre| == 0 || !IsQuote(pre[|pre| - 1]))
    ensures CollapseQuotePairs(pre + ([q1, q2] + post)) == pre + ("\"" + CollapseQuotePairs(post))
  {
    var s := [q1, q2] + post;
    NoPairInPrefix(pre, s);
    CollapseCopiesPrefix(pre, s);
    assert QuotePair(s) && s[2..] == post;
  }

  /** Line 186 cannot tell an empty JSON string from a doubled quote: in
      `{"a": ""}` the two quotes of the empty value become one, and the
      object is left with an unterminated string. */
  lemma EmptyStringValueCollapsed(pre: string, post: string)
    requires NoQuotePair(pre) && (|pre| == 0 || !IsQuote(pre[|pre| - 1]))
    ensures CollapseQuotePairs(pre + ("\"\"" + post)) == pre + ("\"" + CollapseQuotePairs(post))
  {
    CollapseFirstPair(pre, '"', '"', post);
  }


  /* ---------------------------------------------------------------------- */
  /* Line 187: `re.sub(r'[“”](?=.)', "'", cleaned)`                         */
  /* ---------------------------------------------------------------------- */

  /** Line 187 replaces the curly quote at `i`: it is followed by a character
      other than a newline (what `.` matches without DOTALL). */
  predicate TurnsApostrophe(s: string, i: int)
    requires 0 <= i < |s|
  {
    IsCurly(s[i]) && i + 1 < |s| && s[i + 1] != '\n'
  }

  /** Each such curly quote becomes an apostrophe; the lookahead consumes
      nothing, so every position is examined. */
  function CurlyToApostrophes(s: string): (r: string)
    ensures |r| == |s|
    ensures forall i :: 0 <= i < |s| ==> r[i] == (if TurnsApostrophe(s, i) then '\'' else s[i])
  {
    if |s| == 0 then []
    else
      var tail := CurlyToApostrophes(s[1..]);
      assert forall i :: 1 <= i < |s| ==> TurnsApostrophe(s[1..], i - 1) == TurnsApostrophe(s, i);
      [if TurnsApostrophe(s, 0) then '\'' else s[0]] + tail
  }

  /** After line 187 a curly quote survives only as the last character or
      right before a newline. */
  lemma CurlySurvivors(s: string)
    ensures forall i :: 0 <= i < |s| && IsCurly(CurlyToApostrophes(s)[i]) ==>
              i == |s| - 1 || CurlyToApostrophes(s)[i + 1] == '\n'
  {
    var r := CurlyToApostrophes(s);
    forall i | 0 <= i < |s| && IsCurly(r[i])
      ensures i == |s| - 1 || r[i + 1] == '\n'
    {
      if i + 1 < |s| {
        assert !TurnsApostrophe(s, i);
        assert !TurnsApostrophe(s, i + 1);
      }
    }
  }

  /** Without curly quotes, line 187 changes nothing. */
  lemma CurlyToApostrophesUnchanged(s: string)
    requires LeftQuote !in s && RightQuote !in s
    ensures CurlyToApostrophes(s) == s
  {
    var r := CurlyToApostrophes(s);
    forall i | 0 <= i < |s|
      ensures r[i] == s[i]
    {
      assert s[i] != LeftQuote && s[i] != RightQuote;
      assert !TurnsApostrophe(s, i);
    }
  }

  /* ---------------------------------------------------------------------- */
  /* Lines 197-204: `re.sub(r'"([^"]+)":\s*"([^"]*?)"', escape_inner_quotes, …)` */
  /* ---------------------------------------------------------------------- */

  /** End of the run of characters other than `"` that starts at `i`. */
  function SkipNonQuotes(s: string, i: nat): (j: nat)
    requires i <= |s|
    ensures i <= j <= |s|
    ensures forall k :: i <= k < j ==> s[k] != '"'
    ensures j == |s| || s[j] == '"'
    decreases |s| - i
  {
    if i < |s| && s[i] != '"' then SkipNonQuotes(s, i + 1) else i
  }

  lemma {:induction false} SkipNonQuotesOver(s: string, i: nat, j: nat)
    requires i <= j < |s|
    requires forall k :: i <= k < j ==> s[k] != '"'
    requires s[j] == '"'
    ensures SkipNonQuotes(s, i) == j
    decreases j - i
  {
    if i < j {
      SkipNonQuotesOver(s, i + 1, j);
    }
  }

  /** One match of the pair pattern: group 1 (`key`), the whitespace after the
      colon, and group 2 (`value`). */
  datatype PairMatch = PairMatch(key: string, spaces: string, value: string)
  {
    /** The text the whole pattern matched. */
    function Matched(): (m: string)
    {
      "\"" + key + "\":" + spaces + "\"" + value + "\""
    }

    /** The shape the pattern admits: a non-empty key and a value without
        `"`, and whitespace only between the colon and the value. */
    predicate Valid()
    {
      && |key| > 0
      && '"' !in key
      && '"' !in value
      && forall i :: 0 <= i < |spaces| ==> IsSpace(spaces[i])
    }
  }

  /** A match of the pair pattern at the start of `s`. Backtracking cannot
      help any group: `[^"]+` and `[^"]*?` must stop at the next `"`, and
      `\s*` must cover the whole whitespace run, so each group is the maximal
      run and the pattern matches exactly when those runs line up. */
  function MatchPair(s: string): (m: Option<PairMatch>)
    ensures m.Some? ==> |m.value.Matched()| <= |s|
  {
    if |s| == 0 || s[0] != '"' then None
    else
      var k := SkipNonQuotes(s, 1);
      if k == 1 || k + 1 >= |s| || s[k + 1] != ':' then None
      else
        var w := SkipSpaces(s, k + 2);
        if w == |s| || s[w] != '"' then None
        else
          var v := SkipNonQuotes(s, w + 1);
          if v == |s| then None
          else
            RunsFormPair(s, k, w, v);
            Some(PairMatch(s[1..k], s[k + 2..w], s[w + 1..v]))
  }

  /** A match is a pair of the admitted shape, and it is the text the
      pattern matched at the start of `s`. */
  lemma MatchPairSound(s: string)
    ensures MatchPair(s).Some? ==>
              MatchPair(s).value.Valid() && s[..|MatchPair(s).value.Matched()|] == MatchPair(s).value.Matched()
  {
    if MatchPair(s).Some? {
      var k := SkipNonQuotes(s, 1);
      var w := SkipSpaces(s, k + 2);
      var v := SkipNonQuotes(s, w + 1);
      RunsFormPair(s, k, w, v);
    }
  }

  /** Three runs delimited as the pattern demands form a valid match, and its
      text is the prefix of `s` they span. */
  lemma RunsFormPair(s: string, k: nat, w: nat, v: nat)
    requires 1 < k && k + 2 <= w && w + 1 <= v < |s|
    requires s[0] == '"' && s[k] == '"' && s[k + 1] == ':' && s[w] == '"' && s[v] == '"'
    requires forall t :: 1 <= t < k ==> s[t] != '"'
    requires forall t :: k + 2 <= t < w ==> IsSpace(s[t])
    requires forall t :: w + 1 <= t < v ==> s[t] != '"'
    ensures PairMatch(s[1..k], s[k + 2..w], s[w + 1..v]).Valid()
    ensures PairMatch(s[1..k], s[k + 2..w], s[w + 1..v]).Matched() == s[..v + 1]
  {
    var p := PairMatch(s[1..k], s[k + 2..w], s[w + 1..v]);
    assert '"' !in p.key by {
      forall t | 0 <= t < |p.key|
      ensures p.key[t] != '"'
    {
        assert p.key[t] == s[1 + t];
      }
    }
    assert '"' !in p.value by {
      forall t | 0 <= t < |p.value|
      ensures p.value[t] != '"'
    {
        assert p.value[t] == s[w + 1 + t];
      }
    }
    forall t | 0 <= t < |p.spaces|
      ensures IsSpace(p.spaces[t])
    {
      assert p.spaces[t] == s[k + 2 + t];
    }
    PairText(s, k, w, v);
  }

  /** The prefix of `s` up to the closing quote, read as the pattern's
      pieces. */
  lemma PairText(s: string, k: nat, w: nat, v: nat)
    requires 1 < k && k + 2 <= w && w + 1 <= v < |s|
    requires s[0] == '"' && s[k] == '"' && s[k + 1] == ':' && s[w] == '"' && s[v] == '"'
    ensures PairMatch(s[1..k], s[k + 2..w], s[w + 1..v]).Matched() == s[..v + 1]
  {
    assert s[..1] == "\"";
    assert s[..k] == s[..1] + s[1..k];
    assert s[k..k + 2] == "\":";
    assert s[..k + 2] == s[..k] + s[k..k + 2];
    assert s[..w] == s[..k + 2] + s[k + 2..w];
    assert s[w..w + 1] == "\"";
    assert s[..w + 1] == s[..w] + s[w..w + 1];
    assert s[..v] == s[..w + 1] + s[w + 1..v];
    assert s[v..v + 1] == "\"";
    assert s[..v + 1] == s[..v] + s[v..v + 1];
  }

  /** Where the groups sit inside the matched text. */
  lemma MatchedLayout(p: PairMatch)
    ensures var m := p.Matched();
            var k := 1 + |p.key|;
            var w := k + 2 + |p.spaces|;
            var v := w + 1 + |p.value|;
            && |m| == v + 1
            && m[0] == '"' && m[k] == '"' && m[k + 1] == ':' && m[w] == '"' && m[v] == '"'
            && (forall t :: 0 <= t < |p.key| ==> m[1 + t] == p.key[t])
            && (forall t :: 0 <= t < |p.spaces| ==> m[k + 2 + t] == p.spaces[t])
            && (forall t :: 0 <= t < |p.value| ==> m[w + 1 + t] == p.value[t])
  {
  }

  /** The three runs `MatchPair` scans end at `k`, `w` and `v`, with the
      delimiters it checks in place. */
  predicate RunsEndAt(s: string, k: nat, w: nat, v: nat)
  {
    && |s| > 0 && s[0] == '"'
    && 1 < k && k + 1 < |s| && SkipNonQuotes(s, 1) == k && s[k + 1] == ':'
    && k + 2 <= w < |s| && SkipSpaces(s, k + 2) == w && s[w] == '"'
    && w + 1 <= v < |s| && SkipNonQuotes(s, w + 1) == v
  }

  /** `MatchPair` reads its groups off the three runs it scans. */
  lemma MatchPairFromRuns(s: string, k: nat, w: nat, v: nat)
    requires RunsEndAt(s, k, w, v)
    ensures MatchPair(s) == Some(PairMatch(s[1..k], s[k + 2..w], s[w + 1..v]))
  {
  }

  lemma KeyRun(p: PairMatch, rest: string)
    requires p.Valid()
    ensures SkipNonQuotes(p.Matched() + rest, 1) == 1 + |p.key|
  {
    var s := p.Matched() + rest;
    var k := 1 + |p.key|;
    MatchedLayout(p);
    forall t | 1 <= t < k
      ensures s[t] != '"'
    {
      assert s[t] == p.key[t - 1];
    }
    SkipNonQuotesOver(s, 1, k);
  }

  lemma SpaceRun(p: PairMatch, rest: string)
    requires p.Valid()
    ensures SkipSpaces(p.Matched() + rest, 3 + |p.key|) == 3 + |p.key| + |p.spaces|
  {
    var s := p.Matched() + rest;
    var k := 1 + |p.key|;
    var w := k + 2 + |p.spaces|;
    MatchedLayout(p);
    forall t | k + 2 <= t < w
      ensures IsSpace(s[t])
    {
      assert s[t] == p.spaces[t - k - 2];
    }
    SkipSpacesOver(s, k + 2, w);
  }

  lemma ValueRun(p: PairMatch, rest: string)
    requires p.Valid()
    ensures var w := 3 + |p.key| + |p.spaces|;
            SkipNonQuotes(p.Matched() + rest, w + 1) == w + 1 + |p.value|
  {
    var s := p.Matched() + rest;
    var w := 3 + |p.key| + |p.spaces|;
    var v := w + 1 + |p.value|;
    MatchedLayout(p);
    forall t | w + 1 <= t < v
      ensures s[t] != '"'
    {
      assert s[t] == p.value[t - w - 1];
    }
    SkipNonQuotesOver(s, w + 1, v);
  }

  /** The groups sit where `MatchPair` looks for them. */
  lemma PrefixLayout(p: PairMatch, rest: string)
    ensures var s := p.Matched() + rest;
            var k := 1 + |p.key|;
            var w := k + 2 + |p.spaces|;
            var v := w + 1 + |p.value|;
            v < |s| && s[1..k] == p.key && s[k + 2..w] == p.spaces && s[w + 1..v] == p.value
  {
    var s := p.Matched() + rest;
    var k := 1 + |p.key|;
    var w := k + 2 + |p.spaces|;
    var v := w + 1 + |p.value|;
    MatchedLayout(p);
    assert s[1..k] == p.key;
    assert s[k + 2..w] == p.spaces;
    assert s[w + 1..v] == p.value;
  }

  /** The delimiters `MatchPair` checks sit where the pair shape puts them. */
  lemma PairDelimiters(p: PairMatch, rest: string)
    ensures var s := p.Matched() + rest;
            var k := 1 + |p.key|;
            var w := k + 2 + |p.spaces|;
            var v := w + 1 + |p.value|;
            v < |s| && s[0] == '"' && s[k + 1] == ':' && s[w] == '"'
  {
    var m := p.Matched();
    MatchedLayout(p);
    var s := m + rest;
    assert s[0] == m[0];
    assert s[2 + |p.key|] == m[2 + |p.key|];
    assert s[3 + |p.key| + |p.spaces|] == m[3 + |p.key| + |p.spaces|];
  }

  /** `MatchPair` finds the three runs of a text of the pair shape. */
  lemma MatchPairOnPair(p: PairMatch, rest: string)
    requires p.Valid()
    ensures var s := p.Matched() + rest;
            var k := 1 + |p.key|;
            var w := k + 2 + |p.spaces|;
            var v := w + 1 + |p.value|;
            v < |s| && MatchPair(s) == Some(PairMatch(s[1..k], s[k + 2..w], s[w + 1..v]))
  {
    var s := p.Matched() + rest;
    var k := 1 + |p.key|;
    var w := k + 2 + |p.spaces|;
    var v := w + 1 + |p.value|;
    assert RunsEndAt(s, k, w, v) by {
      PairDelimiters(p, rest);
      KeyRun(p, rest);
      SpaceRun(p, rest);
      ValueRun(p, rest);
    }
    MatchPairFromRuns(s, k, w, v);
  }

  /** The converse: whenever `s` starts with a text of the pair shape, the
      pattern matches it, with exactly those groups. */
  lemma MatchPairComplete(p: PairMatch, rest: string)
    requires p.Valid()
    ensures MatchPair(p.Matched() + rest) == Some(p)
  {
    MatchPairOnPair(p, rest);
    PrefixLayout(p, rest);
  }

  /** `value.replace('\'', '\\"')`: each apostrophe becomes an escaped double quote. */
  function EscapeApostrophes(v: string): (r: string)
    ensures '\'' !in r
  {
    if |v| == 0 then []
    else (if v[0] == '\'' then ['\\', '"'] else [v[0]]) + EscapeApostrophes(v[1..])
  }

  /** In a value without `"` (every matched value), escaping apostrophes is
      escaping quotes after reading each apostrophe as a `"`, so a JSON reader
      of the repaired value sees a double quote where the apostrophe was. */
  lemma {:induction false} EscapeApostrophesAsQuotes(v: string)
    requires '"' !in v
    ensures EscapeApostrophes(v) == EscapeQuotes(ReplaceChar(v, '\'', '"'))
    ensures UnescapeQuotes(EscapeApostrophes(v)) == ReplaceChar(v, '\'', '"')
  {
    if |v| > 0 {
      EscapeApostrophesAsQuotes(v[1..]);
      assert ReplaceChar(v, '\'', '"')[1..] == ReplaceChar(v[1..], '\'', '"');
    }
    EscapeRoundTrip(ReplaceChar(v, '\'', '"'));
  }

  /** `escape_inner_quotes`: the replacement text for one match. */
  function RenderPair(p: PairMatch): (r: string)
  {
    "\"" + p.key + "\": \"" + EscapeApostrophes(p.value) + "\""
  }

  /** Line 204 over the whole text. */
  function EscapePairValues(s: string): (r: string)
    ensures |r| == 0 <==> |s| == 0
    decreases |s|
  {
    if |s| == 0 then []
    else match MatchPair(s)
      case Some(p) => RenderPair(p) + EscapePairValues(s[|p.Matched()|..])
      case None => [s[0]] + EscapePairValues(s[1..])
  }

  /** Each text of the pair shape is rewritten as `"key": "value"`, with one
      space after the colon and every apostrophe of the value turned into
      `\"`, and the scan goes on right after the match. */
  lemma EscapePairRewrites(p: PairMatch, rest: string)
    requires p.Valid()
    ensures EscapePairValues(p.Matched() + rest)
            == "\"" + p.key + "\": \"" + EscapeApostrophes(p.value) + "\"" + EscapePairValues(rest)
  {
    MatchPairComplete(p, rest);
    var s := p.Matched() + rest;
    assert s[|p.Matched()|..] == rest;
  }

  /** Where no match starts, line 204 copies the character and scans on from
      the next one. */
  lemma EscapeStep(s: string)
    requires |s| > 0 && MatchPair(s).None?
    ensures EscapePairValues(s) == [s[0]] + EscapePairValues(s[1..])
  {
  }

  /** Text in which no match of the pair pattern starts is copied: the pass
      reaches the rest of the text with that prefix unchanged. */
  lemma EscapeCopiesPrefix(pre: string, s: string)
    requires forall i :: 0 <= i < |pre| ==> MatchPair((pre + s)[i..]).None?
    ensures EscapePairValues(pre + s) == pre + EscapePairValues(s)
  {
    forall t | |t| > 0 && !MatchPair(t).Some?
      ensures EscapePairValues(t) == [t[0]] + EscapePairValues(t[1..])
    {
      EscapeStep(t);
    }
    ScanCopiesPrefix(EscapePairValues, t => MatchPair(t).Some?, pre, s);
  }

  /** Whenever `"` is followed by `:`, exactly one space and then a
      non-whitespace character follow: the spacing line 204 writes. */
  predicate CanonicalColon(s: string)
  {
    |s| >= 2 && s[0] == '"' && s[1] == ':' ==>
      |s| >= 3 && s[2] == ' ' && (|s| == 3 || !IsSpace(s[3]))
  }

  ghost predicate CanonicalColons(s: string)
  {
    forall i :: 0 <= i <= |s| ==> CanonicalColon(s[i..])
  }

  /** The characters around the colon of a matched text. */
  lemma ColonLayout(p: PairMatch)
    ensures var m := p.Matched();
            var k := 1 + |p.key|;
            && |m| > k + 2 && m[k] == '"' && m[k + 1] == ':'
            && (|p.spaces| == 0 ==> m[k + 2] == '"')
            && (|p.spaces| > 0 ==> m[k + 2] == p.spaces[0])
            && (|p.spaces| > 1 ==> m[k + 3] == p.spaces[1])
  {
  }

  /** In canonically spaced text the matched whitespace is one space. */
  lemma CanonicalSpaces(s: string, p: PairMatch)
    requires p.Valid()
    requires |p.Matched()| <= |s| && s[..|p.Matched()|] == p.Matched()
    requires CanonicalColon(s[1 + |p.key|..])
    ensures p.spaces == " "
  {
    var m := p.Matched();
    var k := 1 + |p.key|;
    ColonLayout(p);
    assert s[k] == m[k] && s[k + 1] == m[k + 1] && s[k + 2] == m[k + 2];
    assert s[k..][2] == s[k + 2];
    assert |m| > k + 3 ==> s[k..][3] == s[k + 3] == m[k + 3];
  }

  /** In text without apostrophes the matched value has none. */
  lemma ValueWithoutApostrophes(s: string, p: PairMatch)
    requires |p.Matched()| <= |s| && s[..|p.Matched()|] == p.Matched()
    requires '\'' !in s
    ensures '\'' !in p.value
  {
    var m := p.Matched();
    MatchedLayout(p);
    forall t | 0 <= t < |p.value|
      ensures p.value[t] != '\''
    {
      var j := 4 + |p.key| + |p.spaces| + t;
      assert p.value[t] == m[j] == s[j];
    }
  }

  /** A pair matched in such a text is rendered exactly as it was written. */
  lemma CanonicalPairRendersItself(s: string, p: PairMatch)
    requires '\'' !in s
    requires CanonicalColons(s)
    requires MatchPair(s) == Some(p)
    ensures RenderPair(p) == p.Matched()
  {
    assert p.spaces == " " && EscapeApostrophes(p.value) == p.value by {
      MatchPairSound(s);
      assert CanonicalColon(s[1 + |p.key|..]);
      CanonicalSpaces(s, p);
      ValueWithoutApostrophes(s, p);
      NoApostropheUnescaped(p.value);
    }
    RenderCanonical(p);
  }

  /** With one space after the colon and nothing to escape, rendering gives
      the matched text back. */
  lemma RenderCanonical(p: PairMatch)
    requires p.spaces == " " && EscapeApostrophes(p.value) == p.value
    ensures RenderPair(p) == p.Matched()
  {
    assert "\": \"" == "\":" + " " + "\"";
  }

  /** On a text without apostrophes whose pairs already have the canonical
      `": "` spacing, line 204 changes nothing. */
  lemma {:induction false} EscapePairValuesUnchanged(s: string)
    requires '\'' !in s
    requires CanonicalColons(s)
    ensures EscapePairValues(s) == s
    decreases |s|
  {
    if |s| > 0 {
      match MatchPair(s)
      case Some(p) =>
        var n := |p.Matched()|;
        MatchPairSound(s);
        CanonicalPairRendersItself(s, p);
        assert forall i :: 0 <= i <= |s[n..]| ==> s[n..][i..] == s[n + i..];
        EscapePairValuesUnchanged(s[n..]);
        assert s == s[..n] + s[n..];
      case None =>
        assert forall i :: 0 <= i <= |s[1..]| ==> s[1..][i..] == s[i + 1..];
        EscapePairValuesUnchanged(s[1..]);
        assert s == [s[0]] + s[1..];
    }
  }

  lemma {:induction false} NoApostropheUnescaped(v: string)
    requires '\'' !in v
    ensures EscapeApostrophes(v) == v
  {
    if |v| > 0 {
      NoApostropheUnescaped(v[1..]);
      assert v == [v[0]] + v[1..];
    }
  }

  /* ---------------------------------------------------------------------- */
  /* Lines 184-204 together                                                 */
  /* ---------------------------------------------------------------------- */

  /** The text `cleaned` holds after line 204. The passes are the identity
      on well-quoted text. */
  function RepairQuotes(text: string): (r: string)
    ensures WellQuoted(text) ==> r == text
  {
    var r := EscapePairValues(CurlyToApostrophes(CollapseQuotePairs(DropQuotesBeforeParens(ReplaceLeftQuotes(text)))));
    assert WellQuoted(text) ==> r == text by {
      if WellQuoted(text) {
        assert ReplaceLeftQuotes(text) == text;
        DropUnchanged(text);
        CollapseUnchanged(text);
        CurlyToApostrophesUnchanged(text);
        EscapePairValuesUnchanged(text);
      }
    }
    r
  }

  /** One or two bare quotes hold no key, so line 204 leaves them alone. */
  lemma BareQuotesHaveNoPair()
    ensures EscapePairValues("\"") == "\""
    ensures EscapePairValues("\"\"") == "\"\""
  {
    assert MatchPair("\"\"") == None;
    assert MatchPair("\"") == None;
  }

  /** Two adjacent quotes repair to one. */
  lemma RepairCollapsesPair()
    ensures RepairQuotes("\"\"") == "\""
  {
    var two := "\"\"";
    var one := "\"";
    assert ReplaceLeftQuotes(two) == two;
    assert DropQuotesBeforeParens(two) == two;
    assert CollapseQuotePairs(two) == one;
    assert CurlyToApostrophes(one) == one;
    BareQuotesHaveNoPair();
  }

  /** Three adjacent quotes repair to two. */
  lemma RepairCollapsesFirstPair()
    ensures RepairQuotes("\"\"\"") == "\"\""
  {
    var three := "\"\"\"";
    var two := "\"\"";
    assert ReplaceLeftQuotes(three) == three;
    assert DropQuotesBeforeParens(three) == three;
    assert CollapseQuotePairs(three) == two;
    assert CurlyToApostrophes(two) == two;
    BareQuotesHaveNoPair();
  }

  /** Repair is not idempotent: line 186 collapses the first two of three
      quotes, and a second repair collapses the two that remain. */
  lemma RepairNotIdempotent()
    ensures RepairQuotes("\"\"\"") == "\"\""
    ensures RepairQuotes(RepairQuotes("\"\"\"")) == "\""
  {
    RepairCollapsesFirstPair();
    RepairCollapsesPair();
  }

  /** Text that none of the five passes has anything to repair in: no curly
      quotes or apostrophes, no quote before `(`, no two adjacent quotes, and
      canonical `": "` spacing. */
  ghost predicate WellQuoted(s: string)
  {
    && LeftQuote !in s
    && RightQuote !in s
    && '\'' !in s
    && NoQuoteBeforeParen(s)
    && NoQuotePair(s)
    && CanonicalColons(s)
  }

  /* ---------------------------------------------------------------------- */
  /* Lines 207-217: extraction and parsing                                  */
  /* ---------------------------------------------------------------------- */

  function FirstIndexOf(s: string, c: char): (r: Option<nat>)
    ensures r.None? ==> c !in s
    ensures r.Some? ==> r.value < |s| && s[r.value] == c && c !in s[..r.value]
  {
    if |s| == 0 then None
    else if s[0] == c then Some(0)
    else match FirstIndexOf(s[1..], c)
      case None => None
      case Some(i) =>
        assert s[..i + 1] == [s[0]] + s[1..][..i];
        Some(i + 1)
  }

  function LastIndexOf(s: string, c: char): (r: Option<nat>)
    ensures r.None? ==> c !in s
    ensures r.Some? ==> r.value < |s| && s[r.value] == c && c !in s[r.value + 1..]
  {
    if |s| == 0 then None
    else if s[|s| - 1] == c then Some(|s| - 1)
    else match LastIndexOf(s[..|s| - 1], c)
      case None => None
      case Some(i) =>
        assert s[i + 1..] == s[..|s| - 1][i + 1..] + [s[|s| - 1]];
        Some(i)
  }

  /** `re.search(r"\{.*\}", cleaned, re.DOTALL)`: the span from the first `{`
      to the last `}`, which exists exactly when some `{` precedes some `}`. */
  function ExtractObject(s: string): (r: Option<string>)
    ensures r.Some? <==> exists i, j :: 0 <= i < j < |s| && s[i] == '{' && s[j] == '}'
    ensures r.Some? ==> exists i, j :: 0 <= i < j < |s| && r.value == s[i..j + 1]
                                       && s[i] == '{' && s[j] == '}'
                                       && '{' !in s[..i] && '}' !in s[j + 1..]
  {
    match (FirstIndexOf(s, '{'), LastIndexOf(s, '}'))
    case (Some(i), Some(j)) =>
      if i < j then Some(s[i..j + 1])
      else
        assert forall a, b :: 0 <= a < b < |s| && s[a] == '{' && s[b] == '}' ==> false by {
          forall a, b | 0 <= a < b < |s| && s[a] == '{' && s[b] == '}' ensures false {
          }
        }
        None
    case (None, _) => None
    case (_, None) => None
  }

  const NoObjectMessage: string := "No JSON object found in LLM output."

  function InvalidJsonMessage(jsonText: string, parseError: string): (r: string)
  {
    "Invalid JSON after fix:\n" + jsonText + "\n\nError: " + parseError
  }

  /** `fix_json(text)`, with `json.loads` passed in as `parse` (its error
      value is the text of the `JSONDecodeError`). */
  function FixJson(text: string, parse: string -> Result<Classification, string>): (r: Result<Classification, Error>)
    ensures r.Failure? ==> r.error.ValueError?
    ensures r == Failure(ValueError(NoObjectMessage)) <==> ExtractObject(RepairQuotes(text)).None?
    ensures r.Success? ==> ExtractObject(RepairQuotes(text)).Some?
                           && parse(ExtractObject(RepairQuotes(text)).value) == Success(r.value)
    ensures ExtractObject(RepairQuotes(text)).Some? && parse(ExtractObject(RepairQuotes(text)).value).Success? ==>
              r == Success(parse(ExtractObject(RepairQuotes(text)).value).value)
    ensures ExtractObject(RepairQuotes(text)).Some? && parse(ExtractObject(RepairQuotes(text)).value).Failure? ==>
              r == Failure(ValueError(InvalidJsonMessage(ExtractObject(RepairQuotes(text)).value,
                                                         parse(ExtractObject(RepairQuotes(text)).value).error)))
  {
    match ExtractObject(RepairQuotes(text))
    case None => Failure(ValueError(NoObjectMessage))
    case Some(jsonText) =>
      match parse(jsonText)
      case Success(c) => Success(c)
      case Failure(e) =>
        assert InvalidJsonMessage(jsonText, e)[0] != NoObjectMessage[0];
        Failure(ValueError(InvalidJsonMessage(jsonText, e)))
  }

  /** On well-quoted text, `fix_json` is `json.loads` of the text's own
      outermost `{...}` span. */
  lemma FixJsonWellQuoted(text: string, parse: string -> Result<Classification, string>)
    requires WellQuoted(text)
    ensures ExtractObject(text).None? ==> FixJson(text, parse) == Failure(ValueError(NoObjectMessage))
    ensures ExtractObject(text).Some? && parse(ExtractObject(text).value).Success? ==>
              FixJson(text, parse) == Success(parse(ExtractObject(text).value).value)
    ensures ExtractObject(text).Some? && parse(ExtractObject(text).value).Failure? ==>
              FixJson(text, parse) == Failure(ValueError(InvalidJsonMessage(ExtractObject(text).value,
                                                                            parse(ExtractObject(text).value).error)))
  {
  }
}

=== FILE: taxonomy.dfy ===
/** `pick_category` (bible_chap_doctrine_wa.py, lines 228-242) and the three
    constant lists it searches (lines 26-160). A label is matched by
    case-insensitive containment, `entry.lower() in text.lower()`: the
    principle list first, then the doctrine list, then the growth list, the
    first entry in declared order winning, and `Other` when nothing matches. */
module Taxonomy {
  import opened Base
  import opened Text

  /* `DOCTRINE_LIST` (lines 26-120) is declared in eleven commented sections;
     each section is one constant here and the list is their concatenation in
     declared order. */

  /** Theology Proper (Doctrine of God). */
  const TheologyProper: seq<string> := [
    "Existence of God",
    "Attributes of God",
    "Trinity",
    "Names of God",
    "Works of God",
    "Providence",
    "Sovereignty of God"
  ]

  /** Christology (Doctrine of Christ). */
  const Christology: seq<string> := [
    "Deity of Christ",
    "Humanity of Christ",
    "Incarnation",
    "Virgin Birth",
    "Atonement",
    "Resurrection of Christ",
    "Ascension",
    "Second Coming"
  ]

  /** Pneumatology (Doctrine of the Holy Spirit). */
  const Pneumatology: seq<string> := [
    "Personhood of the Holy Spirit",
    "Deity of the Holy Spirit",
    "Work of the Holy Spirit",
    "Indwelling of the Spirit",
    "Filling of the Spirit",
    "Spiritual Gifts"
  ]

  /** Anthropology (Doctrine of Man). */
  const Anthropology: seq<string> := [
    "Creation of Man",
    "Image of God",
    "Nature of Man",
    "Body, Soul, and Spirit",
    "Free Will",
    "Human Responsibility"
  ]

  /** Hamartiology (Doctrine of Sin). */
  const Hamartiology: seq<string> := [
    "Origin of Sin",
    "Nature of Sin",
    "Total Depravity",
    "Effects of Sin",
    "Consequences of Sin"
  ]

  /** Soteriology (Doctrine of Salvation). */
  const Soteriology: seq<string> := [
    "Election",
    "Calling",
    "Regeneration",
    "Repentance",
    "Faith",
    "Justification",
    "Adoption",
    "Sanctification",
    "Perseverance",
    "Glorification"
  ]

  /** Ecclesiology (Doctrine of the Church). */
  const Ecclesiology: seq<string> := [
    "Nature of the Church",
    "Purpose of the Church",
    "Unity of the Church",
    "Leadership in the Church",
    "Spiritual Authority",
    "Baptism",
    "Lord\U{2019}s Supper"
  ]

  /** Angelology (Doctrine of Angels). */
  const Angelology: seq<string> := [
    "Nature of Angels",
    "Ministry of Angels",
    "Ranks of Angels",
    "Guardian Angels"
  ]

  /** Demonology (Doctrine of Satan and Demons). */
  const Demonology: seq<string> := [
    "Satan",
    "Demons",
    "Fall of Satan",
    "Spiritual Warfare",
    "Demonic Influence"
  ]

  /** Eschatology (Doctrine of Last Things). */
  const Eschatology: seq<string> := [
    "Death",
    "Intermediate State",
    "Resurrection of the Dead",
    "Second Coming of Christ",
    "Tribulation",
    "Millennium",
    "Final Judgment",
    "Heaven",
    "Hell",
    "New Creation"
  ]

  /** The Kingdom of God. */
  const KingdomOfGod: seq<string> := [
    "Kingdom of God",
    "Reign of Christ",
    "Already and Not Yet Kingdom",
    "Eternal Life"
  ]

  const DoctrineList: seq<string> :=
    TheologyProper + Christology + Pneumatology + Anthropology + Hamartiology + Soteriology
    + Ecclesiology + Angelology + Demonology + Eschatology + KingdomOfGod

  /** `GROWTH_LIST` (lines 122-127), in declared order. */
  const GrowthList: seq<string> := [
      "Prayer",
      "Faith",
      "Obedience",
      "Discipleship",
      "Worship",
      "Service",
      "Stewardship",
      "Perseverance",
      "Spiritual Growth",
      "Humility",
      "Repentance",
      "Love",
      "Trust in God",
      "Walking in the Spirit",
      "Spiritual Warfare",
      "Calling"
    ]

  /** `CHARLES_STANLEY_30` (lines 129-160), in declared order; entry `i`
      (from 0) is principle number `i + 1`. */
  const PrincipleList: seq<string> := [
      "Intimacy with God",
      "Obey God and leave all the consequences to Him",
      "God\U{2019}s Word is an anchor in times of trouble",
      "Awareness of God\U{2019}s presence",
      "Obey God even when it seems unreasonable",
      "You reap what you sow",
      "Dark moments serve God\U{2019}s purpose",
      "Fight all your battles on your knees",
      "Trust God beyond what you see",
      "God moves heaven and earth to show you His will",
      "God provides when we obey Him",
      "Peace with God",
      "Listening to God",
      "God acts on behalf of those who wait for Him",
      "Brokenness is God\U{2019}s requirement for usefulness",
      "Outside God\U{2019}s will everything becomes ashes",
      "You stand tallest when you are on your knees",
      "You are never a victim of your circumstances",
      "Let go of what you hold too tightly",
      "Disappointments are inevitable, discouragement is a choice",
      "Obedience always brings blessing",
      "Walk in the Spirit and obey His promptings",
      "You can never outgive God",
      "Let Jesus live His life in and through you",
      "God blesses us so we can bless others",
      "Adversity deepens our relationship with God",
      "Prayer is life\U{2019}s greatest time-saver",
      "Never go it alone in your faith",
      "God uses valleys to teach us",
      "Eager anticipation of Christ\U{2019}s return"
    ]

  const PrinciplesCategory: string := "Charles Stanley Life Principles"
  const DoctrineCategory: string := "Doctrine"
  const GrowthCategory: string := "Christian Growth"
  const OtherCategory: string := "Other"

  /** The `lesson_name` of principle number `n`. */
  function PrincipleName(n: nat): (r: string)
  {
    "Charles Stanley Life Principle " + NatToDecimal(n)
  }

  /** What `pick_category` returns: category, lesson name and lesson text. */
  datatype Pick = Pick(category: string, name: string, text: string)

  /** `entry.lower() in text.lower()`. */
  predicate Mentions(text: string, entry: string)
    ensures Mentions(text, entry) ==> |entry| <= |text|
    ensures Contains(text, entry) ==> Mentions(text, entry)
  {
    ContainsLower(text, entry);
    Contains(Lower(text), Lower(entry))
  }

  /** `text` mentions some entry of the list. */
  ghost predicate MentionsAny(entries: seq<string>, text: string)
  {
    exists i :: 0 <= i < |entries| && Mentions(text, entries[i])
  }

  /** Entry `i` is the first entry of the list that `text` mentions. */
  ghost predicate FirstMentioned(entries: seq<string>, text: string, i: int)
  {
    && 0 <= i < |entries|
    && Mentions(text, entries[i])
    && forall j :: 0 <= j < i ==> !Mentions(text, entries[j])
  }

  /** The `for` loop over one list: the first entry from position `k` on that
      `text` mentions. */
  function FirstMentionFrom(entries: seq<string>, text: string, k: nat): (r: Option<nat>)
    requires k <= |entries|
    ensures r.Some? ==> k <= r.value < |entries| && Mentions(text, entries[r.value])
                        && forall j :: k <= j < r.value ==> !Mentions(text, entries[j])
    ensures r.None? ==> forall j :: k <= j < |entries| ==> !Mentions(text, entries[j])
    decreases |entries| - k
  {
    if k == |entries| then None
    else if Mentions(text, entries[k]) then Some(k)
    else FirstMentionFrom(entries, text, k + 1)
  }

  /** The first entry of the whole list that `text` mentions, if any. */
  function FirstMention(entries: seq<string>, text: string): (r: Option<nat>)
    ensures r.Some? ==> FirstMentioned(entries, text, r.value)
    ensures r.None? <==> !MentionsAny(entries, text)
  {
    FirstMentionFrom(entries, text, 0)
  }

  /** The category is always one of the four fixed names. */
  predicate IsCategory(c: string)
  {
    c == PrinciplesCategory || c == DoctrineCategory || c == GrowthCategory || c == OtherCategory
  }

  /** The three lists `pick_category` searches, in search order. */
  datatype CategoryLists = CategoryLists(principles: seq<string>, doctrine: seq<string>, growth: seq<string>)

  /** The repository's lists. */
  const RepositoryLists: CategoryLists := CategoryLists(PrincipleList, DoctrineList, GrowthList)

  /** `pick_category` over any three lists: the principle list is searched
      first, then the doctrine list, then the growth list; a principle is
      named by its one-based position. */
  function PickFrom(lists: CategoryLists, text: string): (r: Pick)
    ensures IsCategory(r.category)
    ensures r.category == PrinciplesCategory <==> MentionsAny(lists.principles, text)
    ensures r.category == DoctrineCategory <==>
              !MentionsAny(lists.principles, text) && MentionsAny(lists.doctrine, text)
    ensures r.category == GrowthCategory <==>
              !MentionsAny(lists.principles, text) && !MentionsAny(lists.doctrine, text)
              && MentionsAny(lists.growth, text)
    ensures r.category == OtherCategory <==>
              !MentionsAny(lists.principles, text) && !MentionsAny(lists.doctrine, text)
              && !MentionsAny(lists.growth, text)
    ensures r.category == PrinciplesCategory ==>
              exists i :: FirstMentioned(lists.principles, text, i)
                          && r.name == PrincipleName(i + 1) && r.text == lists.principles[i]
    ensures r.category == DoctrineCategory ==>
              exists i :: FirstMentioned(lists.doctrine, text, i)
                          && r.name == lists.doctrine[i] && r.text == lists.doctrine[i]
    ensures r.category == GrowthCategory ==>
              exists i :: FirstMentioned(lists.growth, text, i)
                          && r.name == lists.growth[i] && r.text == lists.growth[i]
    ensures r.category == OtherCategory ==> r.name == text && r.text == text
  {
    match FirstMention(lists.principles, text)
    case Some(i) => Pick(PrinciplesCategory, PrincipleName(i + 1), lists.principles[i])
    case None =>
      match FirstMention(lists.doctrine, text)
      case Some(d) => Pick(DoctrineCategory, lists.doctrine[d], lists.doctrine[d])
      case None =>
        match FirstMention(lists.growth, text)
        case Some(g) => Pick(GrowthCategory, lists.growth[g], lists.growth[g])
        case None => Pick(OtherCategory, text, text)
  }

  /** `pick_category(text)` with the repository's three lists: a label
      mentioning a life principle is a principle whatever else it mentions,
      doctrine comes before growth, and a label mentioning none of the
      entries is filed under `Other` as itself. */
  function PickCategory(text: string): (r: Pick)
    ensures IsCategory(r.category)
    ensures r.category == PrinciplesCategory <==> MentionsAny(PrincipleList, text)
    ensures r.category == DoctrineCategory <==>
              !MentionsAny(PrincipleList, text) && MentionsAny(DoctrineList, text)
    ensures r.category == GrowthCategory <==>
              !MentionsAny(PrincipleList, text) && !MentionsAny(DoctrineList, text) && MentionsAny(GrowthList, text)
    ensures r.category == OtherCategory ==> r.name == text && r.text == text
  {
    PickFrom(RepositoryLists, text)
  }

  /** At most one entry is the first mentioned one. */
  lemma FirstMentionedUnique(entries: seq<string>, text: string, i: int, j: int)
    requires FirstMentioned(entries, text, i) && FirstMentioned(entries, text, j)
    ensures i == j
  {
  }

  /** When entry `i` is the first principle a label mentions, the label is
      principle number `i + 1`, whatever the other two lists hold. */
  lemma PickFirstPrinciple(lists: CategoryLists, text: string, i: int)
    requires FirstMentioned(lists.principles, text, i)
    ensures PickFrom(lists, text) == Pick(PrinciplesCategory, PrincipleName(i + 1), lists.principles[i])
  {
    var r := PickFrom(lists, text);
    var k :| FirstMentioned(lists.principles, text, k) && r.name == PrincipleName(k + 1) && r.text == lists.principles[k];
    FirstMentionedUnique(lists.principles, text, i, k);
  }

  /** No entry of the list is the empty string. */
  predicate NoEmptyEntry(entries: seq<string>)
  {
    forall i :: 0 <= i < |entries| ==> entries[i] != ""
  }

  lemma NoEmptyEntryConcat(a: seq<string>, b: seq<string>)
    requires NoEmptyEntry(a) && NoEmptyEntry(b)
    ensures NoEmptyEntry(a + b)
  {
    forall i | 0 <= i < |a + b|
      ensures (a + b)[i] != ""
    {
      if i >= |a| {
        assert (a + b)[i] == b[i - |a|];
      }
    }
  }

  /** The principle and growth lists hold no empty entry. */
  lemma ShortListsHaveNoEmptyEntry()
    ensures NoEmptyEntry(PrincipleList) && NoEmptyEntry(GrowthList)
  {
  }

  /** The doctrine list holds no empty entry: none of its sections does. */
  lemma DoctrineHasNoEmptyEntry()
    ensures NoEmptyEntry(DoctrineList)
  {
    var d := TheologyProper;
    NoEmptyEntryConcat(d, Christology);
    d := d + Christology;
    NoEmptyEntryConcat(d, Pneumatology);
    d := d + Pneumatology;
    NoEmptyEntryConcat(d, Anthropology);
    d := d + Anthropology;
    NoEmptyEntryConcat(d, Hamartiology);
    d := d + Hamartiology;
    NoEmptyEntryConcat(d, Soteriology);
    d := d + Soteriology;
    NoEmptyEntryConcat(d, Ecclesiology);
    d := d + Ecclesiology;
    NoEmptyEntryConcat(d, Angelology);
    d := d + Angelology;
    NoEmptyEntryConcat(d, Demonology);
    d := d + Demonology;
    NoEmptyEntryConcat(d, Eschatology);
    d := d + Eschatology;
    NoEmptyEntryConcat(d, KingdomOfGod);
    d := d + KingdomOfGod;
  }

  /** With no empty entry in any list, the picked text is empty only when
      the label is empty and matched nothing. */
  lemma PickedTextEmpty(lists: CategoryLists, text: string)
    requires NoEmptyEntry(lists.principles) && NoEmptyEntry(lists.doctrine) && NoEmptyEntry(lists.growth)
    ensures PickFrom(lists, text).text == "" ==> text == ""
  {
  }

  /* ---------------------------------------------------------------------- */
  /* Shadowed entries                                                       */
  /* ---------------------------------------------------------------------- */

  /** A later entry that contains an earlier one can never be the first match. */
  lemma ShadowedNeverFirst(entries: seq<string>, text: string, i: nat, j: nat)
    requires i < j < |entries|
    requires Contains(entries[j], entries[i])
    ensures !FirstMentioned(entries, text, j)
  {
    if Mentions(text, entries[j]) {
      ContainsLower(entries[j], entries[i]);
      ContainsTrans(Lower(text), Lower(entries[j]), Lower(entries[i]));
    }
  }

  /** With a growth result no doctrine entry is mentioned, so the picked
      growth entry is never one that the doctrine list also holds. */
  lemma GrowthNeverDoctrineEntry(lists: CategoryLists, text: string)
    ensures PickFrom(lists, text).category == GrowthCategory ==>
              forall d :: 0 <= d < |lists.doctrine| ==> PickFrom(lists, text).name != lists.doctrine[d]
  {
    var r := PickFrom(lists, text);
    if r.category == GrowthCategory {
      var g :| FirstMentioned(lists.growth, text, g) && r.name == lists.growth[g];
      assert Mentions(text, r.name);
    }
  }

  /** The growth entries that the doctrine list repeats. */
  lemma DoctrineRepeatsGrowth()
    ensures GrowthList[1] == DoctrineList[36] == "Faith"
    ensures GrowthList[7] == DoctrineList[40] == "Perseverance"
    ensures GrowthList[10] == DoctrineList[35] == "Repentance"
    ensures GrowthList[14] == DoctrineList[56] == "Spiritual Warfare"
    ensures GrowthList[15] == DoctrineList[33] == "Calling"
  {
  }

  /** The growth entries Faith, Perseverance, Repentance, Spiritual Warfare
      and Calling are never returned as growth results: the same words in the
      doctrine list always match first. */
  lemma ShadowedGrowthEntries(text: string)
    ensures var r := PickCategory(text);
            r.category == GrowthCategory ==>
              && r.name != "Faith" && r.name != "Perseverance" && r.name != "Repentance"
              && r.name != "Spiritual Warfare" && r.name != "Calling"
  {
    GrowthNeverDoctrineEntry(RepositoryLists, text);
    DoctrineRepeatsGrowth();
  }

  /** "Second Coming of Christ" (entry 61) begins with "Second Coming" (entry
      14), and "Fall of Satan" (entry 55) ends with "Satan" (entry 53). */
  lemma DoctrineContainments()
    ensures DoctrineList[61] == "Second Coming of Christ" && DoctrineList[55] == "Fall of Satan"
    ensures Contains(DoctrineList[61], DoctrineList[14])
    ensures Contains(DoctrineList[55], DoctrineList[53])
  {
    assert DoctrineList[61] == "" + DoctrineList[14] + " of Christ";
    ContainsInfix("", DoctrineList[14], " of Christ");
    assert DoctrineList[55] == "Fall of " + DoctrineList[53] + "";
    ContainsInfix("Fall of ", DoctrineList[53], "");
  }

  /** The doctrine entries "Second Coming of Christ" and "Fall of Satan" are
      never the first doctrine entry a label mentions, so `pick_category`
      never reaches them. */
  lemma ShadowedDoctrineEntries(text: string)
    ensures DoctrineList[61] == "Second Coming of Christ" && !FirstMentioned(DoctrineList, text, 61)
    ensures DoctrineList[55] == "Fall of Satan" && !FirstMentioned(DoctrineList, text, 55)
  {
    DoctrineContainments();
    ShadowedNeverFirst(DoctrineList, text, 14, 61);
    ShadowedNeverFirst(DoctrineList, text, 53, 55);
  }

  /* ---------------------------------------------------------------------- */
  /* A worked example                                                       */
  /* ---------------------------------------------------------------------- */

  /** A letter of `entry` that occurs in `text` in neither case rules out a mention. */
  lemma LetterRulesOut(text: string, entry: string, k: nat, c: char)
    requires k < |entry| && LowerChar(entry[k]) == c
    requires 'a' <= c <= 'z' && c !in text && ((c as int) - 32) as char !in text
    ensures !Mentions(text, entry)
  {
    LowerMissesLetter(text, c);
    assert Lower(entry)[k] == c;
    MissingCharRulesOut(Lower(text), Lower(entry), c);
  }

  /** No entry among `entries[lo..hi]` occurs in `text`. */
  ghost predicate NoneMentioned(entries: seq<string>, text: string, lo: int, hi: int)
    requires 0 <= lo <= hi <= |entries|
  {
    forall j :: lo <= j < hi ==> !Mentions(text, entries[j])
  }

  /** When every character of `text` comes from `alphabet`, and entry `j` of
      `entries` holds at position `ks[j]` the letter `cs[j]`, which the
      alphabet lacks in both cases, `text` mentions none of the first `|cs|`
      entries. */
  lemma LettersRuleOut(text: string, alphabet: set<char>, entries: seq<string>, ks: seq<nat>, cs: string)
    requires forall k :: 0 <= k < |text| ==> text[k] in alphabet
    requires |ks| == |cs| <= |entries|
    requires forall j :: 0 <= j < |cs| ==> ks[j] < |entries[j]| && LowerChar(entries[j][ks[j]]) == cs[j]
    requires forall j :: 0 <= j < |cs| ==>
               'a' <= cs[j] <= 'z' && cs[j] !in alphabet && ((cs[j] as int) - 32) as char !in alphabet
    ensures NoneMentioned(entries, text, 0, |cs|)
  {
    forall j | 0 <= j < |cs|
      ensures !Mentions(text, entries[j])
    {
      LetterRulesOut(text, entries[j], ks[j], cs[j]);
    }
  }

  /** Every label mentions itself. */
  lemma MentionsItself(text: string)
    ensures Mentions(text, text)
  {
    assert ContainsAt(Lower(text), Lower(text), 0);
  }

  const TrustGod: string := "Trust God beyond what you see"
  const TrustGodLetters: set<char> := {' ', 'G', 'T', 'a', 'b', 'd', 'e', 'h', 'n', 'o', 'r', 's', 't', 'u', 'w', 'y'}

  /** The characters of "Trust God beyond what you see". */
  lemma TrustGodAlphabet(s: string)
    requires s == TrustGod
    ensures forall k :: 0 <= k < |s| ==> s[k] in TrustGodLetters
  {
  }

  /** For each of principles 1-8, a position and the letter found there. */
  const WitnessPositions: seq<nat> := [0, 13, 11, 11, 19, 7, 3, 0]
  const WitnessLetters: string := "ilifipkf"

  lemma WitnessLettersInPrinciples()
    ensures forall j :: 0 <= j < 8 ==>
              WitnessPositions[j] < |PrincipleList[j]| && LowerChar(PrincipleList[j][WitnessPositions[j]]) == WitnessLetters[j]
  {
  }

  lemma WitnessLettersNotInTrustGod()
    ensures forall j :: 0 <= j < |WitnessLetters| ==>
              'a' <= WitnessLetters[j] <= 'z' && WitnessLetters[j] !in TrustGodLetters
              && ((WitnessLetters[j] as int) - 32) as char !in TrustGodLetters
  {
  }

  /** Principles 1-8 each hold a letter that "Trust God beyond what you see"
      lacks in both cases, so none of them occurs in it. */
  lemma TrustGodMissesFirstEight(s: string)
    requires s == TrustGod
    ensures NoneMentioned(PrincipleList, s, 0, 8)
  {
    TrustGodAlphabet(s);
    WitnessLettersInPrinciples();
    WitnessLettersNotInTrustGod();
    LettersRuleOut(s, TrustGodLetters, PrincipleList, WitnessPositions, WitnessLetters);
  }

  /** The ninth principle is the label itself. */
  lemma NinthPrinciple()
    ensures PrincipleList[8] == TrustGod
  {
  }

  /** The label "Trust God beyond what you see" is principle 9: it is the
      ninth entry, and none of the first eight occurs in it. */
  lemma TrustGodIsPrinciple9(lists: CategoryLists, s: string)
    requires lists.principles == PrincipleList && s == TrustGod
    ensures PickFrom(lists, s) == Pick(PrinciplesCategory, PrincipleName(9), s)
  {
    TrustGodMissesFirstEight(s);
    NinthPrinciple();
    MentionsItself(s);
    PickFirstPrinciple(lists, s, 8);
  }

  /** Principle 9 is named "Charles Stanley Life Principle 9". */
  lemma PrincipleNineName()
    ensures PrincipleName(9) == "Charles Stanley Life Principle 9"
  {
    assert NatToDecimal(9) == "9";
  }
}

=== FILE: text.dfy ===
/** Character classes and string operations the Python code takes from the
    standard library: `str.isspace` / regex `\s`, regex `\d`, `str.lower`,
    the `in` operator on strings, `str.strip`, `str(int)` and the two quote
    escapes. */
module Text {

  /** The typographic double quotes U+201C and U+201D. */
  const LeftQuote: char := '\U{201C}'
  const RightQuote: char := '\U{201D}'

  /** Python's whitespace: the characters for which `str.isspace` holds, which
      are also the characters the `\s` class of a `str` pattern matches. */
  predicate IsSpace(c: char)
  {
    || c == ' '
    || ('\t' <= c <= '\r')
    || ('\U{1C}' <= c <= '\U{1F}')
    || c == '\U{85}'
    || c == '\U{A0}'
    || c == '\U{1680}'
    || ('\U{2000}' <= c <= '\U{200A}')
    || c == '\U{2028}'
    || c == '\U{2029}'
    || c == '\U{202F}'
    || c == '\U{205F}'
    || c == '\U{3000}'
  }

  /** An ASCII decimal digit (the model's reading of regex `\d`). */
  predicate IsDigit(c: char)
  {
    '0' <= c <= '9'
  }

  /** The class `["“”]` of the repair passes. */
  predicate IsQuote(c: char)
  {
    c == '"' || c == LeftQuote || c == RightQuote
  }

  /** The class `[“”]`. */
  predicate IsCurly(c: char)
  {
    c == LeftQuote || c == RightQuote
  }

  /* ---------------------------------------------------------------------- */
  /* Filtering                                                              */
  /* ---------------------------------------------------------------------- */

  /** Filtering a text that starts with `c`. */
  lemma FilterCons(c: char, t: string, keep: char -> bool)
    ensures Filter([c] + t, keep) == (if keep(c) then [c] else []) + Filter(t, keep)
  {
    assert ([c] + t)[1..] == t;
  }

  /** The characters of `s` for which `keep` holds, in order. */
  function Filter(s: string, keep: char -> bool): (r: string)
    ensures |r| <= |s|
    ensures forall i :: 0 <= i < |r| ==> keep(r[i])
  {
    if |s| == 0 then []
    else (if keep(s[0]) then [s[0]] else []) + Filter(s[1..], keep)
  }

  lemma {:induction false} FilterConcat(a: string, b: string, keep: char -> bool)
    ensures Filter(a + b, keep) == Filter(a, keep) + Filter(b, keep)
  {
    if |a| == 0 {
      assert a + b == b;
    } else {
      assert (a + b)[1..] == a[1..] + b;
      FilterConcat(a[1..], b, keep);
    }
  }

  /** A string all of whose characters are dropped leaves nothing. */
  lemma {:induction false} FilterNone(s: string, keep: char -> bool)
    requires forall i :: 0 <= i < |s| ==> !keep(s[i])
    ensures Filter(s, keep) == []
  {
    if |s| > 0 {
      FilterNone(s[1..], keep);
    }
  }

  /** A left-to-right rewrite `f` that copies the first character whenever
      its pattern does not match at the start (`stops` says where it does)
      copies any prefix at none of whose positions the pattern matches. */
  lemma {:induction false} ScanCopiesPrefix(f: string -> string, stops: string -> bool, pre: string, s: string)
    requires forall t {:trigger stops(t)} :: |t| > 0 && !stops(t) ==> f(t) == [t[0]] + f(t[1..])
    requires forall i {:trigger stops((pre + s)[i..])} :: 0 <= i < |pre| ==> !stops((pre + s)[i..])
    ensures f(pre + s) == pre + f(s)
    decreases |pre|
  {
    if |pre| == 0 {
      assert pre + s == s;
    } else {
      var t := pre + s;
      var rest := pre[1..];
      assert f(t) == [pre[0]] + f(rest + s) by {
        assert !stops(t[0..]) && t[0..] == t;
        assert t[0] == pre[0] && t[1..] == rest + s;
      }
      assert f(rest + s) == rest + f(s) by {
        forall i | 0 <= i < |rest| ensures !stops((rest + s)[i..]) {
          assert (rest + s)[i..] == t[i + 1..];
        }
        ScanCopiesPrefix(f, stops, rest, s);
      }
      assert [pre[0]] + (rest + f(s)) == pre + f(s) by {
        assert pre == [pre[0]] + rest;
      }
    }
  }

  /* ---------------------------------------------------------------------- */
  /* Case folding and containment (`a.lower() in b.lower()`)                */
  /* ---------------------------------------------------------------------- */

  /** ASCII `str.lower` on one character. */
  function LowerChar(c: char): (r: char)
    ensures !('A' <= r <= 'Z')
    ensures r != c ==> 'A' <= c <= 'Z'
  {
    if 'A' <= c <= 'Z' then ((c as int) + 32) as char else c
  }

  /** `s.lower()`, ASCII letters only; every other character is kept. */
  function Lower(s: string): (r: string)
    ensures |r| == |s|
  {
    seq(|s|, i requires 0 <= i < |s| => LowerChar(s[i]))
  }

  /** A lower-case letter that occurs in `s` in neither case is absent from `Lower(s)`. */
  lemma LowerMissesLetter(s: string, c: char)
    requires 'a' <= c <= 'z' && c !in s && ((c as int) - 32) as char !in s
    ensures c !in Lower(s)
  {
  }

  /** `p` occurs in `s` at offset `i`. */
  predicate ContainsAt(s: string, p: string, i: int)
  {
    0 <= i && i + |p| <= |s| && s[i..i + |p|] == p
  }

  /** Python's `p in s` on two strings. */
  predicate Contains(s: string, p: string)
  {
    exists i | 0 <= i <= |s| - |p| :: ContainsAt(s, p, i)
  }

  lemma ContainsInfix(a: string, p: string, b: string)
    ensures Contains(a + p + b, p)
  {
    assert ContainsAt(a + p + b, p, |a|);
  }

  /** Containment is transitive: a substring of a substring is a substring. */
  lemma ContainsTrans(s: string, p: string, q: string)
    requires Contains(s, p) && Contains(p, q)
    ensures Contains(s, q)
  {
    var i :| 0 <= i <= |s| - |p| && ContainsAt(s, p, i);
    var j :| 0 <= j <= |p| - |q| && ContainsAt(p, q, j);
    var w := s[i + j..i + j + |q|];
    forall k | 0 <= k < |q|
      ensures w[k] == q[k]
    {
      assert q[k] == p[j + k] == s[i..i + |p|][j + k];
    }
    assert w == q;
    assert ContainsAt(s, q, i + j);
  }

  /** Lower-casing preserves containment. */
  lemma ContainsLower(s: string, p: string)
    ensures Contains(s, p) ==> Contains(Lower(s), Lower(p))
  {
    if Contains(s, p) {
      var i :| 0 <= i <= |s| - |p| && ContainsAt(s, p, i);
      assert Lower(s)[i..i + |p|] == Lower(p);
      assert ContainsAt(Lower(s), Lower(p), i);
    }
  }

  /** A character of `p` that `s` lacks rules out `p in s`. */
  lemma MissingCharRulesOut(s: string, p: string, c: char)
    requires c in p && c !in s
    ensures !Contains(s, p)
  {
  }

  /* ---------------------------------------------------------------------- */
  /* Decimal numerals (`str(n)` and the digit runs regex `\d+` captures)    */
  /* ---------------------------------------------------------------------- */

  function DigitChar(d: nat): (r: char)
    requires d < 10
    ensures IsDigit(r) && DigitValue(r) == d
  {
    ((('0' as int) + d) as char)
  }

  function DigitValue(c: char): (r: nat)
    requires IsDigit(c)
    ensures r < 10
  {
    (c as int) - ('0' as int)
  }

  predicate AllDigits(s: string)
  {
    forall i :: 0 <= i < |s| ==> IsDigit(s[i])
  }

  /** `str(n)`: the shortest decimal numeral of `n`. */
  function NatToDecimal(n: nat): (r: string)
    ensures |r| > 0 && AllDigits(r)
    ensures r[0] == '0' ==> r == "0"
  {
    if n < 10 then [DigitChar(n)] else NatToDecimal(n / 10) + [DigitChar(n % 10)]
  }

  /** The number a run of decimal digits denotes. */
  function DecimalValue(s: string): (r: nat)
    requires AllDigits(s)
  {
    if |s| == 0 then 0 else 10 * DecimalValue(s[..|s| - 1]) + DigitValue(s[|s| - 1])
  }

  /** `int(str(n)) == n`: the numeral reads back as the number it renders. */
  lemma {:induction false} DecimalRoundTrip(n: nat)
    ensures DecimalValue(NatToDecimal(n)) == n
  {
    if n >= 10 {
      var r := NatToDecimal(n);
      assert r[..|r| - 1] == NatToDecimal(n / 10);
      DecimalRoundTrip(n / 10);
    }
  }

  /** Distinct numbers render as distinct numerals. */
  lemma DecimalInjective(m: nat, n: nat)
    requires NatToDecimal(m) == NatToDecimal(n)
    ensures m == n
  {
    DecimalRoundTrip(m);
    DecimalRoundTrip(n);
  }

  /* ---------------------------------------------------------------------- */
  /* `str.strip()`                                                          */
  /* ---------------------------------------------------------------------- */

  function TrimStart(s: string): (r: string)
    ensures |r| <= |s| && r == s[|s| - |r|..]
    ensures forall i :: 0 <= i < |s| - |r| ==> IsSpace(s[i])
    ensures |r| == 0 || !IsSpace(r[0])
  {
    if |s| > 0 && IsSpace(s[0]) then TrimStart(s[1..]) else s
  }

  function TrimEnd(s: string): (r: string)
    ensures |r| <= |s| && r == s[..|r|]
    ensures forall i :: |r| <= i < |s| ==> IsSpace(s[i])
    ensures |r| == 0 || !IsSpace(r[|r| - 1])
  {
    if |s| > 0 && IsSpace(s[|s| - 1]) then TrimEnd(s[..|s| - 1]) else s
  }

  /** `s.strip()`: `s` without its leading and trailing whitespace runs. */
  function Strip(s: string): (r: string)
    ensures |r| == 0 || (!IsSpace(r[0]) && !IsSpace(r[|r| - 1]))
  {
    TrimEnd(TrimStart(s))
  }

  /** What `strip` keeps: a slice of the input with only whitespace cut from
      each end. */
  lemma StripSlice(s: string)
    ensures exists a, b :: 0 <= a <= b <= |s| && Strip(s) == s[a..b]
                           && (forall i :: 0 <= i < a ==> IsSpace(s[i]))
                           && (forall i :: b <= i < |s| ==> IsSpace(s[i]))
  {
    var t := TrimStart(s);
    var r := TrimEnd(t);
    var a := |s| - |t|;
    var b := a + |r|;
    assert r == s[a..b] by {
      assert t == s[a..];
      assert r == t[..|r|];
    }
    assert forall i :: b <= i < |s| ==> IsSpace(s[i]) by {
      forall i | b <= i < |s| ensures IsSpace(s[i]) {
        assert s[i] == t[i - a];
      }
    }
  }

  /* ---------------------------------------------------------------------- */
  /* Replacement and quote escaping                                         */
  /* ---------------------------------------------------------------------- */

  /** `s.replace(from, to)` for single characters. */
  function ReplaceChar(s: string, from: char, to: char): (r: string)
    ensures |r| == |s|
    ensures forall i :: 0 <= i < |s| ==> r[i] == (if s[i] == from then to else s[i])
  {
    if |s| == 0 then [] else [if s[0] == from then to else s[0]] + ReplaceChar(s[1..], from, to)
  }

  /** `s.replace('"', '\\"')`: a backslash before every double quote. */
  function EscapeQuotes(s: string): (r: string)
    ensures |r| >= |s|
  {
    if |s| == 0 then []
    else (if s[0] == '"' then ['\\', '"'] else [s[0]]) + EscapeQuotes(s[1..])
  }

  /** The inverse reading: drop the backslash of every `\"`, scanning left to right. */
  function UnescapeQuotes(s: string): (r: string)
    ensures |r| <= |s|
  {
    if |s| >= 2 && s[0] == '\\' && s[1] == '"' then ['"'] + UnescapeQuotes(s[2..])
    else if |s| == 0 then []
    else [s[0]] + UnescapeQuotes(s[1..])
  }

  /** Every double quote of an escaped string is preceded by a backslash. */
  lemma {:induction false} EscapedQuotesGuarded(s: string)
    ensures forall i :: 0 <= i < |EscapeQuotes(s)| && EscapeQuotes(s)[i] == '"'
                        ==> i > 0 && EscapeQuotes(s)[i - 1] == '\\'
  {
    if |s| > 0 {
      EscapedQuotesGuarded(s[1..]);
      var head := if s[0] == '"' then ['\\', '"'] else [s[0]];
      var tail := EscapeQuotes(s[1..]);
      assert EscapeQuotes(s) == head + tail;
      forall i | 0 <= i < |head + tail| && (head + tail)[i] == '"'
        ensures i > 0 && (head + tail)[i - 1] == '\\'
      {
        if i >= |head| {
          assert tail[i - |head|] == '"';
        }
      }
    }
  }

  /** An escaped string never starts with a double quote. */
  lemma EscapedStart(s: string)
    requires |s| > 0
    ensures EscapeQuotes(s)[0] != '"'
  {
  }

  /** Text without double quotes is left as it is. */
  lemma {:induction false} EscapeNoQuotes(s: string)
    requires '"' !in s
    ensures EscapeQuotes(s) == s
  {
    if |s| > 0 {
      assert '"' !in s[1..] by {
        forall k | 0 <= k < |s| - 1 ensures s[1..][k] != '"' { assert s[1..][k] == s[k + 1]; }
      }
      EscapeNoQuotes(s[1..]);
      assert s == [s[0]] + s[1..];
    }
  }

  /** Escaping loses nothing: unescaping gives the original text back. */
  lemma {:induction false} EscapeRoundTrip(s: string)
    ensures UnescapeQuotes(EscapeQuotes(s)) == s
  {
    if |s| > 0 {
      EscapeRoundTrip(s[1..]);
      var tail := EscapeQuotes(s[1..]);
      if s[0] == '"' {
        assert EscapeQuotes(s) == ['\\', '"'] + tail;
        assert (['\\', '"'] + tail)[2..] == tail;
      } else {
        assert EscapeQuotes(s) == [s[0]] + tail;
        if |tail| > 0 {
          EscapedStart(s[1..]);
        }
        assert ([s[0]] + tail)[1..] == tail;
      }
      assert s == [s[0]] + s[1..];
    }
  }
}
